=== FILE: README.md ===
# moodflix dialogue engine in Dafny

This project models the core of moodflix, a Spanish-language Telegram bot that recommends movies and series. The core is the per-user dialogue of `ChatManager` (app/chat.py) and the preference logic it calls in app/utils.py:

- **Session store.** `_get_state` and `_reset_state` over the map from user id to session. A session holds the slots, the last intent, the pending question and the page.
- **Routing.** `handle_message` checks the stripped, lower-cased text against the reset commands, the greetings, the "otra" requests and the farewells, in that order. Anything else goes to `_process_user_message`.
- **Free-text turn.** The extractor's answer gets its defaults, and an "other" intent becomes "answer" while a question is pending. `merge_slots` folds the answer into the session. The question sequencer `_next_question` either asks the next question or lets `_try_recommend` run.
- **Recommendation.** `discover_tmdb` builds the query parameters: restrictions, genres resolved through the two genre tables by `_resolve_genre_ids`, dates, runtime, and popularity. `build_recommendations_from_tmdb` reads the requested count, clamps it to 1..5, and takes that many results that carry an id. `get_watch_providers` and `format_providers_message` describe where each title can be watched. `_try_recommend` picks the reply and cuts long overviews at the last space before 380 characters.

Python's dynamic values are modelled as `Values.Value`. Python's truthiness is `Values.Truthy`. An exception the code can raise is a `PyError` carried in a `Result`. A turn returns the new store together with either the reply or the exception that escaped. Mutations made before a raise stay, as they do on the Python dict.

The language model and the HTTP catalog are function-valued fields of `Chat.Env` and `Catalog.Catalog`. The model is written from the code as it stands. `Chat.Env` also chooses the rule set a session runs on (`Chat.Rules`). `AsWritten` uses the merge, question sequencer and query builder of the code. `Corrected` uses the same three with the two defects under "## Findings" repaired. Every lemma about the session that does not name a rule set holds for both.

Modules, one per file:

| module | file |
|---|---|
| `Wrappers`, `Values` | values.dfy |
| `Text`: Python's `strip`, `lower`, `upper`, `in`, `int` and `join` on strings | text.dfy |
| `SlotMerge` | slot_merge.dfy |
| `Questions` | questions.dfy |
| `Genres` | genres.dfy |
| `Discover` | discover.dfy |
| `Catalog` | catalog.dfy |
| `Chat` | chat.dfy |

## Model

| member | source | states |
|---|---|---|
| Values.Iterate | app/utils.py:509-511 | Iterating a list yields its items. Iterating a string yields its characters as one-character strings. Anything else raises TypeError. |
| Values.IterateOrEmpty | app/utils.py:494 | `v or []` iterates as the empty list for every falsy value, and as `v` itself otherwise. |
| Text.Strip | app/chat.py:70 | The result is the input with all leading and trailing whitespace removed, and nothing else. |
| Text.Lower | app/chat.py:71 | Same length as the input. Each ASCII or Latin-1 capital becomes the small letter 32 code points above it, and every other character stays. |
| Text.Upper | app/utils.py:585 | Same length as the input. Each ASCII small letter becomes its capital, 32 code points below, and every other character stays. |
| Text.Contains | app/chat.py:77 | The substring test holds exactly when the needle occurs at some index of the text. |
| Text.ParseDecimal | app/utils.py:677 | `int()` of the decimal text of a natural number gives that number back. |
| Text.DecimalRoundTrip | app/utils.py:677 | The decimal text of `n` is a run of digits whose value is `n`. |
| SlotMerge.Informative | app/utils.py:405-408 | The entries of the incoming map that are kept are exactly those whose value is not None, "", [] or "indiferente", and they are kept unchanged. |
| SlotMerge.MergeSlots | app/utils.py:395-410 | With an empty current map the result is the incoming map verbatim. Otherwise, a key is present iff it was present before or arrives with an informative value; informative values override; every other stored value stays. |
| SlotMerge.MergeIdempotent | app/utils.py:395-410 | Merging the same answer a second time changes nothing. |
| SlotMerge.StoredValueSurvivesSkip | app/utils.py:405-408 | A stored slot that the answer leaves out or gives an uninformative value keeps its stored value. |
| SlotMerge.MergeKeys | app/utils.py:395-410 | The merged keys contain the old keys and lie within the old keys plus the incoming keys. |
| Questions.KeyInjective | app/chat.py:142-188 | Distinct questions target distinct slot keys. |
| Questions.ChosenType | app/chat.py:143 | The sequencer's type is movie or tv exactly when the lower-cased `tipo_contenido` (default "indiferente") is "movie" or "tv". A truthy non-string raises. |
| Questions.OrderShape | app/chat.py:154-185 | A movie needs 6 questions and a series 8, each asked at most once. |
| Questions.FailIndex | app/chat.py:154-188 | Every gate before the index is satisfied, and the gate at the index is not. |
| Questions.NextQuestionIsFirstFailing | app/chat.py:142-188 | `_next_question` raises when the type cannot be lower-cased. It asks for the type when the type is neither movie nor tv. Otherwise it returns the first unsatisfied gate in the type's fixed order. |
| Questions.NextQuestion | app/chat.py:142-188 | `_next_question` raises iff the content type cannot be read. A gate it returns is one the slots do not yet satisfy. It returns no gate only for a movie or tv session. Questions.NextQuestionIsFirstFailing says which gate comes back. |
| Questions.ReadyIffAllPass | app/chat.py:142-188 | No question is returned iff the type is movie or tv and every gate of its order is satisfied. |
| Questions.OtherKeysKeepType | app/chat.py:143 | Answering any slot other than `tipo_contenido` leaves the chosen type as it was. |
| Questions.AnswerAdvances | app/chat.py:142-188 | Storing an accepted answer to the question asked moves the sequencer strictly forward in the order. |
| Questions.InterviewFrom | app/chat.py:142-188 | Answering each question asked with an accepted value reaches "no question" within the number of gates left. |
| Questions.Interview | app/chat.py:142-188 | From any well-typed slot map, at most 8 accepted answers lead to the recommendation step. |
| Questions.NextQuestionReadsGateKeys | app/chat.py:143-152 | The question depends only on the values of the eight gate keys. |
| Questions.UninformativeAnswerRepeatsQuestion | app/utils.py:399-408 | On a non-empty session, an answer with no informative gate key leaves the next question unchanged. |
| Questions.IndifferentLengthIsAskedAgain | app/chat.py:162-164 | Answering "indiferente" to the movie-length question asks the movie-length question again. |
| Questions.MergeIntended | app/utils.py:395-410 | Corrected merge. An empty session takes the answer verbatim, as `merge_slots` does. No stored key is dropped, no key is invented, and every value comes from one of the two maps. |
| Questions.MergeIntendedSpec | app/utils.py:395-410 | Corrected merge: informative values override, stored set values stay, and "indiferente" is recorded for a slot that was unset. On a non-empty session every value that changes is informative or "indiferente". |
| Questions.MergeIntendedAgrees | app/utils.py:395-410 | The corrected merge equals `merge_slots` on an empty session, and on any answer that records no "indiferente" over an unset slot. |
| Questions.NextQuestionIntended | app/chat.py:142-188 | Corrected sequencer, in which "indiferente" counts as an answer and as a movie type. The question returned is a gate without a recorded answer. For a known type, a question is returned iff some gate of its order has no recorded answer. |
| Questions.IntendedFailIndex | app/chat.py:154-188 | The first gate without a recorded answer, and every gate before it answered. |
| Questions.IndifferentAnswerAdvances | app/chat.py:142-188 | Under the corrected merge and sequencer, answering "indiferente" to the question asked moves past that question. |
| Genres.TableIdsPositive | app/utils.py:420-453 | Every ID in either genre table is non-zero, so the truthiness filter drops only misses. |
| Genres.FoundAllMembers | app/utils.py:460-465 | The IDs found are exactly the table values of the names whose normalised key is in the table. |
| Genres.FirstOccurrencesSpec | app/utils.py:465-466 | Keeping first occurrences gives each element once, with the same element set. |
| Genres.ResolveFromIsFirstOccurrences | app/utils.py:460-467 | The loop, started from the first occurrences of a prefix, yields the first occurrences of the whole list, or raises on a later bad name. |
| Genres.ResolveGenreIdsSpec | app/utils.py:456-467 | `_resolve_genre_ids` raises AttributeError iff some name is truthy but not a string. Otherwise it returns the IDs of the known names, without duplicates, in first-occurrence order. |
| Genres.ResolveGenreIds | app/utils.py:456-467 | The only error `_resolve_genre_ids` raises is AttributeError, and the IDs it returns never repeat. Genres.ResolveGenreIdsSpec gives the exact list. |
| Discover.Exclusions | app/utils.py:497-511 | The restriction loop raises TypeError iff an item is a list, which cannot be hashed. Otherwise the excluded IDs are empty iff no item is a known keyword. |
| Discover.ExclusionsMembers | app/utils.py:507-511 | The IDs collected are exactly the table IDs of the known keywords among the restrictions. |
| Discover.ExclusionsAppend | app/utils.py:507-511 | `without` is extended in the order of the restrictions: the IDs of a concatenation are those of the first part followed by those of the second. |
| Discover.ApplyPreferencesAt | app/utils.py:527-564 | The four preference steps, applied in the source's order, agree key by key with a table of what each preference writes. That table sets `with_genres` when some genre resolved, the date bound of the content type for "nuevo" or "clasico", the runtime bound for a short or long movie, and `sort_by` with the vote bounds by popularity. Every other key keeps the base value. |
| Discover.ApplyPreferencesFrame | app/utils.py:527-564 | The preference steps touch only the preference keys. |
| Discover.PreferencesFrame | app/utils.py:526-564 | When genre resolution does not raise, the preference block changes no key outside the preference keys. |
| Discover.ApplyPreferencesGenres | app/utils.py:527-531 | `with_genres` is present iff some ID resolved, and then holds the joined IDs. |
| Discover.ApplyPreferencesDates | app/utils.py:533-544 | "nuevo" sets the from-date 2015-01-01 and "clasico" the to-date 2005-12-31, on the content type's own date field and never on the other one. |
| Discover.ApplyPreferencesRuntime | app/utils.py:546-552 | For movies, "corta" caps the runtime at 100 and "larga" sets a floor of 130. Series and other lengths get no runtime bound. |
| Discover.ApplyPreferencesFame | app/utils.py:554-564 | "conocida" sorts by popularity with at least 500 votes. "joyita" sorts by rating with 50 to 2000 votes. Anything else sorts by rating without vote bounds. |
| Discover.PreferencesRaiseIndependent | app/utils.py:528-529 | Whether the genre step raises does not depend on the base parameters, and it never raises UnboundLocalError. |
| Discover.WrittenBaseSpec | app/utils.py:516-525 | A built base holds language, upper-cased region, `include_adult` "false" and the page. `without_genres` is present iff the restrictions mention "no_animacion", and its value is then "16". |
| Discover.DiscoverParamsSpec | app/utils.py:489-564 | A built query has the base fields, the popularity fields, the runtime fields and the date fields, each as its slot demands. |
| Discover.DiscoverParams | app/utils.py:489-564 | A query that `discover_tmdb` builds carries the language, the upper-cased region, `include_adult` "false" and the page asked for. Discover.DiscoverParamsSpec and Discover.UnboundExactlyOnKnownRestriction give the rest. |
| Discover.UnboundExactlyOnKnownRestriction | app/utils.py:509-516 | The query raises UnboundLocalError exactly when the restrictions iterate without error and some item is a known keyword. |
| Discover.ListRestrictionsNeverExclude | app/utils.py:513-525 | With a list of restrictions, or none, a query that is built never carries `without_genres`. |
| Discover.StringRestrictionExcludesAnimation | app/utils.py:509-525 | A plain string "no_animacion" passes the loop, since its characters are not keywords, and still excludes genre 16. |
| Discover.IntendedExcludesRestrictedGenres | app/utils.py:497-525 | Corrected query: `without_genres` is present iff some restriction is known. It is "16" when "no_animacion" is among them. Otherwise it is the comma join of the collected IDs, which are exactly the table IDs of the known restrictions. |
| Discover.RestrictedBaseSpec | app/utils.py:497-525 | The corrected base carries no preference key. It carries `without_genres` iff some restriction is known: "16" when "no_animacion" is among them, and otherwise the comma join of the table IDs of the known restrictions. |
| Discover.IntendedNeverUnbound | app/utils.py:513-516 | The corrected query never raises UnboundLocalError. |
| Discover.IntendedAgreesWithoutRestrictions | app/utils.py:489-564 | Without a known restriction, the corrected query equals the query as written. |
| Catalog.MaxRecs | app/utils.py:677-678 | The count is always in 1..5. A falsy value gives 1. Integers are clamped. It raises iff the value is truthy and is a list or a non-numeric string. |
| Catalog.MaxRecsOfText | app/utils.py:677-678 | A count given as decimal text is read as its number, then clamped. |
| Catalog.ProviderRegion | app/utils.py:585 | The region is never empty and holds no small letter. It is "AR" when none is configured, and otherwise the configured code with each small letter capitalised. |
| Catalog.Named | app/utils.py:604-606 | The names kept are exactly the non-empty ones. A list with no empty name is kept whole. |
| Catalog.NamedCons | app/utils.py:604-606 | A leading offer's name is kept in front of the rest iff it is not empty. |
| Catalog.NamedAppend | app/utils.py:604-606 | The names of a concatenation are the names of each part, one after the other. Together with Catalog.NamedCons, this fixes the order and the repeats the comprehension keeps. |
| Catalog.WatchProviders | app/utils.py:585-616 | Without an entry for the region, all lists are empty and nothing is available. Otherwise each list keeps the named providers, and the title is available iff some list is non-empty. |
| Catalog.FormatProviders | app/utils.py:619-644 | "Not available" iff the flag is off or all lists are empty. Otherwise the listing names "serie" or "película" and has one line per non-empty list, in the order subscription, rent, buy. |
| Catalog.ProvidersMessageNotAvailable | app/utils.py:576-644 | Composed, the two say "not available" iff the region is missing or every provider name there is empty. |
| Catalog.FetchRec | app/utils.py:686-715 | Fetching one title fails with an HTTP error iff its details or providers cannot be fetched. Its overview is never empty. A movie carries no season or episode counts. |
| Catalog.FetchRecFields | app/utils.py:686-715 | A fetched record keeps the fetched overview, or "Sin sinopsis disponible." when it is empty. A series keeps the fetched season and episode counts. The providers message is the formatted providers of the configured region. |
| Catalog.TruthyIds | app/utils.py:683-685 | Every id kept is truthy, and none is added. |
| Catalog.TruthyIdsMembers | app/utils.py:683-685 | The ids kept are exactly the truthy ones. |
| Catalog.TruthyIdsAppend | app/utils.py:682-685 | Filtering keeps the input order: the filter of a concatenation is the concatenation of the filters. |
| Catalog.TruthyIdsCons | app/utils.py:683-685 | One id in front of the rest is kept, in front, iff it is truthy. |
| Catalog.FetchAll | app/utils.py:682-730 | Fetching a list fails iff one title fails. Otherwise it fetches every title, in order. |
| Catalog.CollectIsFetchPrefix | app/utils.py:682-730 | The loop with its early break fetches exactly the first `max_recs` truthy ids. |
| Catalog.BuildRecommendationsSpec | app/utils.py:651-732 | No results give no recommendations. An unreadable count raises. Otherwise the result is the fetch of the first min(count, available) truthy ids, at most 5, in order, and it fails iff one of those fetches fails. |
| Catalog.BuildRecommendations | app/utils.py:651-732 | `build_recommendations_from_tmdb` returns at most 5 recommendations and no more than the results' truthy ids. The i-th one is for the i-th truthy id. Catalog.BuildRecommendationsSpec gives the exact list. |
| Catalog.LastSpace | app/chat.py:237 | The index of the last ' ', or none when there is no space. |
| Catalog.TruncateOverview | app/chat.py:235-237 | Overviews of at most 380 characters are kept. Longer ones are cut before their last space within the first 380 characters, or at 380 when there is none, and end in "...". |
| Chat.GetState | app/chat.py:34-42 | The user's session, created fresh only when missing. Other users' entries are untouched. |
| Chat.GetStateIdempotent | app/chat.py:34-42 | A second lookup creates nothing new. |
| Chat.ResetState | app/chat.py:44-50 | The user's session becomes fresh. Every other entry stays. |
| Chat.FinishExtraction | app/utils.py:385-392 | Intent defaults to "other". Slots default to empty. `cantidad_recs` becomes 1 only when missing, and the model's own entries stay. |
| Chat.Merge | app/utils.py:395-410 | Under both rule sets, a first answer is taken verbatim, no stored key is dropped, no key is invented, and an informative value wins. |
| Chat.RecommendType | app/chat.py:199-201 | The type is tv iff the lower-cased `tipo_contenido` is "tv", and movie otherwise. A truthy non-string raises AttributeError. |
| Chat.Show | app/chat.py:228-237 | A card keeps the id and the providers, truncates the overview to at most 383 characters, and lists seasons and episodes only for series and only when they are not null. |
| Chat.TryRecommendSpec | app/chat.py:194-251 | An untyped `tipo_contenido` raises. The API-error reply comes iff the rule set's query fails or the search fails. A list of recommendations has 1 to 5 cards with truthy ids. It is introduced as another option iff asked for one, and as a single recommendation iff it has one card. |
| Chat.TryRecommend | app/chat.py:194-251 | `_try_recommend` raises AttributeError on an untyped content type. Any reply it gives is the API error, no results, or 1 to 5 cards. Chat.TryRecommendSpec and Chat.TryRecommendShowsSelection give the rest. |
| Chat.TryRecommendShowsSelection | app/chat.py:211-237 | Once the search answers, a failure building the list escapes. The no-results reply comes iff no result has a truthy id. Otherwise the reply shows one card per title built, with no raise. There are min(clamped count, truthy ids) cards, and card i shows the i-th truthy id. |
| Chat.RestrictionsReachSearch | app/chat.py:205-209 | Under the corrected rules, with a list of string restrictions, the query is built and excludes genres iff some restriction is known. The API error then comes only from a failed search. |
| Chat.WrittenRestrictionGivesApiError | app/chat.py:205-209 | As written, a list of restrictions with a known keyword and no nested list gets the API-error reply, whatever the search returns. |
| Chat.RouteOf | app/chat.py:73-89 | The first matching check decides the route: command, greeting, "otra" or farewell, and free text otherwise. |
| Chat.HandleMessage | app/chat.py:69-89 | `handle_message` may change or create this user's session only. No other session changes, and no other user is added. The route lemmas below give each branch. |
| Chat.Absorb | app/chat.py:104-115 | The slots become the rule set's merge, and the page becomes 1. "other" turns into "answer" exactly when a question is pending. |
| Chat.Respond | app/chat.py:117-136 | "other" gets the clarification, and only "other" does. Otherwise the rule set's sequencer decides. If it raises, the error escapes. If it returns a gate, that gate is asked and becomes the pending question. If it returns none, the recommendation runs on page 1 with the session unchanged. |
| Chat.ProcessUserMessage | app/chat.py:95-136 | `_process_user_message` changes only this user's session and sets its page to 1. It replies with the clarification iff the stored intent is "other". Chat.ProcessedTurn gives the rest. |
| Chat.CommandResets | app/chat.py:73-75 | A command resets only this user and welcomes. |
| Chat.GreetingKeepsState | app/chat.py:77-78 | A text containing a greeting welcomes and leaves the whole store untouched. |
| Chat.GreetingBeforeFarewell | app/chat.py:77-87 | "hola, chau" welcomes and resets nothing. |
| Chat.MoreRequestsAreNoGreetings | app/chat.py:77-80 | No "otra" request contains a greeting, so all four reach their branch. |
| Chat.MoreTurnsPage | app/chat.py:80-83 | An "otra" request raises the page by one, keeps the rest of the session, and recommends on that page as another option. |
| Chat.FarewellResets | app/chat.py:85-87 | A farewell resets this user and says goodbye. |
| Chat.FarewellsAreNoGreetings | app/chat.py:77-87 | No farewell contains a greeting, so every farewell reaches its branch. |
| Chat.ProcessedTurn | app/chat.py:95-136 | A free-text turn stores the merged slots, page 1 and the (possibly promoted) intent. It clarifies iff the intent is "other". Otherwise the sequencer's verdict on the merged slots decides. Its error escapes. Its gate is asked and becomes the pending question. With no gate, the recommendation runs on page 1. A question asked is always the sequencer's; without one the pending question stays. Other users are untouched. |
| Chat.WrittenIndifferentLengthAskedAgain | app/chat.py:95-136 | As written, a session waiting for the movie length that is answered "indiferente" is asked for the movie length again. |
| Chat.ProcessPreservesSessionOk | app/chat.py:95-136 | A free-text turn keeps every session well-formed: page at least 1, no "other" while a question is pending, and `cantidad_recs` present once any slot is stored. |
| Chat.HandleMessagePreservesStoreOk | app/chat.py:69-89 | Every message, under either rule set, keeps every session well-formed in the same sense. |
| Chat.PendingQuestionPersists | app/chat.py:69-136 | Only a command or a farewell clears a pending question. |
| Chat.NoClarifyOncePending | app/chat.py:104-105 | Once a question is pending, a processed message is never answered with the clarification. |

## Left out

- The language model, its prompt and its JSON parsing (app/utils.py:66-392). The model's answer is an oracle `Env.llm` returning the intent and slot map. Exceptions raised by the client are not modelled.
- HTTP: `_tmdb_get`, status codes and timeouts. The search, details and providers requests are oracles; a failed request is `None`, which the model turns into HttpError.
- `save_conversation_history` and its file I/O, including the cap at 300 entries, and all logging.
- Reply prose and emoji. Replies are the `Chat.Reply` kinds. For cards, the model shows only the id, the truncated overview, the series lines and the providers message; title, year, duration and genre text are not modelled.
- The placement of the card blocks and the final `strip()` of the joined reply.
- Catalog.WatchProviders: it takes the provider names as strings. A provider entry that is not a dict, or whose name is not a string, is not modelled.
- `get_watch_providers` receives no region argument from its caller, so only the configured-region path is modelled.
- Text.Lower maps ASCII and Latin-1 capitals only. Python's full Unicode case mapping is not modelled.
- Text.Upper maps ASCII small letters only. Python's full Unicode case mapping is not modelled.
- Values.Value has no floats and no dicts, although the extractor's JSON can carry both. So `int(2.0)` in the count (app/utils.py:677) is not modelled. Neither is the TypeError a dict item in `restricciones` raises, nor `merge_slots` storing `{}` as an informative value. A restriction item raises in `Discover.Exclusions` only when it is a list.
- Text.ParseInt accepts ASCII digits only. Python's `int()` also accepts the other Unicode decimal digits.
- app/config.py is not part of this model. `TMDB_LANG` and `settings.region` are parameters; `TMDB_LANG` is imported but is not defined in that file.
- `_welcome_message` is the `Welcome` reply; its text is not modelled.
- The Telegram script scripts/run_telegram_bot.py is not modelled.

Behaviour of the code worth knowing:

- A greeting does not reset the session. It only welcomes (Chat.GreetingKeepsState).
- The pending question is never cleared by an answer (Chat.PendingQuestionPersists).
- "otra" works without a previous recommendation.
- Failures in reading the count or fetching one title's details escape `_try_recommend` instead of producing an error reply (Chat.TryRecommendSpec).

## Findings

| source | as written | input that shows it | evidently intended | confidence | as-written member | corrected member |
|---|---|---|---|---|---|---|
| app/utils.py:405-408 with app/chat.py:162-185 | On a non-empty session, `merge_slots` drops an "indiferente" answer. The gates for length, seasons, episodes, chapter length, novelty and fame treat "indiferente" as unanswered, so the same question is asked forever. | Session `{tipo_contenido: "movie", generos: ["comedia"], cantidad_recs: 1}`; the user answers `duracion_peli: "indiferente"` | "indiferente" is recorded as an answer and the sequencer moves on | high (not executed) | Chat.WrittenIndifferentLengthAskedAgain | Questions.IndifferentAnswerAdvances |
| app/utils.py:513-516 | `params` is assigned at line 514 before it is bound at line 516. Any known restriction therefore raises UnboundLocalError, and the user gets the API-error reply. | `restricciones: ["no_terror"]` | The known restrictions become `without_genres` on the query | high (not executed) | Chat.WrittenRestrictionGivesApiError | Discover.IntendedExcludesRestrictedGenres |

The session machine (`Chat`) runs on either rule set. `Chat.Rules.AsWritten` uses `SlotMerge.MergeSlots`, `Questions.NextQuestion` and `Discover.DiscoverParams`. `Chat.Rules.Corrected` uses `Questions.MergeIntended`, `Questions.NextQuestionIntended` and `Discover.DiscoverParamsIntended`. Both problems are also shown below the session level: `Questions.IndifferentLengthIsAskedAgain` for the sequencer, and `Discover.UnboundExactlyOnKnownRestriction` for the query. `Questions.MergeIntendedAgrees`, `Discover.IntendedNeverUnbound` and `Discover.IntendedAgreesWithoutRestrictions` relate each corrected definition to the written one.

=== FILE: catalog.dfy ===
/**
 The catalog side of a recommendation (app/utils.py): how many titles to
 show, which search results become recommendations, where each title can be
 watched, and the text limits of the reply. The catalog requests themselves
 are oracles: `Catalog` carries the details and watch-provider lookups, each
 of which may fail.
 */
module Catalog {
  import opened Wrappers
  import opened Values
  import Text

  // ---------------------------------------------------------------------------
  // How many recommendations: `max(1, min(int(cantidad_recs or 1), 5))`.
  // ---------------------------------------------------------------------------

  /**
   Python's `int(v)` for the values a slot can hold: integers as they are,
   booleans as 0 and 1, strings through `int()` parsing (ValueError when
   they are not integer literals); null and lists raise TypeError.
   */
  function PyInt(v: Value): Result<int, PyError> {
    match v
    case VInt(n) => Ok(n)
    case VBool(b) => Ok(if b then 1 else 0)
    case VStr(s) => if Text.ParseInt(s).Some? then Ok(Text.ParseInt(s).value) else Err(ValueError)
    case _ => Err(TypeError)
  }

  /** `max(1, min(n, 5))`. */
  function Clamp(n: int): int {
    if n < 1 then 1 else if n > 5 then 5 else n
  }

  /**
   The number of recommendations `build_recommendations_from_tmdb` stops
   at: between 1 and 5 whenever it is computed; 1 when the slot is absent
   or falsy; the requested count itself when that is an integer in range;
   raises when the slot holds a list or a string that is not an integer.
   */
  function MaxRecs(slots: Slots): (r: Result<int, PyError>)
    ensures r.Ok? ==> 1 <= r.value <= 5
    ensures !Truthy(Get(slots, "cantidad_recs")) ==> r == Ok(1)
    ensures Get(slots, "cantidad_recs") == VInt(0) ==> r == Ok(1)
    ensures forall n :: Get(slots, "cantidad_recs") == VInt(n) && 1 <= n <= 5 ==> r == Ok(n)
    ensures forall n :: Get(slots, "cantidad_recs") == VInt(n) && n > 5 ==> r == Ok(5)
    ensures forall n :: Get(slots, "cantidad_recs") == VInt(n) && n < 1 ==> r == Ok(1)
    ensures r.Err? <==> (Truthy(Get(slots, "cantidad_recs")) &&
      (Get(slots, "cantidad_recs").VList? || (Get(slots, "cantidad_recs").VStr? && Text.ParseInt(Get(slots, "cantidad_recs").s).None?)))
  {
    match PyInt(Or(Get(slots, "cantidad_recs"), VInt(1)))
    case Err(e) => Err(e)
    case Ok(n) => Ok(Clamp(n))
  }

  /** A count given as decimal text is read back and clamped like the integer itself. */
  lemma MaxRecsOfText(slots: Slots, n: nat)
    requires Get(slots, "cantidad_recs") == VStr(Text.Decimal(n))
    ensures MaxRecs(slots) == Ok(Clamp(n))
  {
    Text.ParseDecimal(n);
  }

  // ---------------------------------------------------------------------------
  // Watch providers: `get_watch_providers` after the request, and
  // `format_providers_message`.
  // ---------------------------------------------------------------------------

  /**
   One region's entry of the providers response, reduced to the provider
   names of each offer kind; "" stands for an entry whose `provider_name`
   is missing or empty.
   */
  datatype RegionInfo = RegionInfo(flatrate: seq<string>, rent: seq<string>, buy: seq<string>)

  /** The dict `get_watch_providers` returns. */
  datatype Providers = Providers(region: string, available: bool, flatrate: seq<string>, rent: seq<string>, buy: seq<string>)

  /**
   The country the providers are read for: "AR" when no region is
   configured, otherwise the configured code with each small letter
   capitalised. It is never empty and holds no small letter, so reading it
   again gives the same country.
   */
  function ProviderRegion(configured: string): (r: string)
    ensures r != ""
    ensures forall i :: 0 <= i < |r| ==> !('a' <= r[i] <= 'z')
    ensures configured == "" ==> r == "AR"
    ensures configured != "" ==> |r| == |configured|
    ensures configured != "" ==> forall i :: 0 <= i < |r| && !('a' <= configured[i] <= 'z') ==> r[i] == configured[i]
    ensures configured != "" ==> forall i :: 0 <= i < |r| && 'a' <= configured[i] <= 'z' ==> r[i] as int == configured[i] as int - 32
  {
    Text.Upper(if configured != "" then configured else "AR")
  }

  /** `[p["provider_name"] for p in offers if p.get("provider_name")]`: the named entries, in order. */
  function Named(names: seq<string>): (r: seq<string>)
    ensures forall x :: x in r <==> x in names && x != ""
    ensures |r| <= |names|
    ensures (forall i :: 0 <= i < |names| ==> names[i] != "") ==> r == names
  {
    if names == [] then []
    else if names[0] == "" then Named(names[1..])
    else [names[0]] + Named(names[1..])
  }

  /** A leading name is kept in front of the rest exactly when it is not empty. */
  lemma NamedCons(x: string, xs: seq<string>)
    ensures Named([x] + xs) == (if x != "" then [x] else []) + Named(xs)
  {
    assert ([x] + xs)[0] == x;
    assert ([x] + xs)[1..] == xs;
  }

  /**
   The comprehension keeps the order and the repeats of the offers: the
   names of a concatenation are the names of each part, one after the other.
   */
  lemma {:induction false} NamedAppend(a: seq<string>, b: seq<string>)
    ensures Named(a + b) == Named(a) + Named(b)
    decreases |a|
  {
    if a == [] {
      assert a + b == b;
    } else {
      assert (a + b)[0] == a[0];
      assert (a + b)[1..] == a[1..] + b;
      NamedAppend(a[1..], b);
      if a[0] != "" {
        assert [a[0]] + (Named(a[1..]) + Named(b)) == ([a[0]] + Named(a[1..])) + Named(b);
      }
    }
  }

  /**
   `get_watch_providers` once the response is in: the entry of the chosen
   region (none when the response lacks it) with unnamed offers dropped;
   `available` holds exactly when some offer kind still has a name.
   */
  function WatchProviders(results: map<string, RegionInfo>, configured: string): (p: Providers)
    ensures p.region == ProviderRegion(configured)
    ensures p.region !in results ==> p.flatrate == [] && p.rent == [] && p.buy == [] && !p.available
    ensures p.region in results ==>
      && p.flatrate == Named(results[p.region].flatrate)
      && p.rent == Named(results[p.region].rent)
      && p.buy == Named(results[p.region].buy)
    ensures p.available <==> p.flatrate != [] || p.rent != [] || p.buy != []
  {
    var region := ProviderRegion(configured);
    if region !in results then Providers(region, false, [], [], [])
    else
      var info := results[region];
      var f := Named(info.flatrate);
      var r := Named(info.rent);
      var b := Named(info.buy);
      Providers(region, f != [] || r != [] || b != [], f, r, b)
  }

  /** One line of the providers message: an offer kind with the platforms that have it. */
  datatype Offer = Subscription(names: seq<string>) | Rental(names: seq<string>) | Purchase(names: seq<string>)

  /** The providers message: the fixed "not available" text, or a list of offers under the noun of the content type. */
  datatype ProvidersMessage = NotAvailable | Listing(noun: string, offers: seq<Offer>)

  /**
   `format_providers_message`: not available when the record says so or
   when every offer kind is empty; otherwise the non-empty kinds in the
   order subscription, rental, purchase, under the noun of the content
   type.
   */
  function FormatProviders(p: Providers, ct: ContentType): (m: ProvidersMessage)
    ensures m == NotAvailable <==> !p.available || (p.flatrate == [] && p.rent == [] && p.buy == [])
    ensures m.Listing? ==> m.noun == (if ct == Tv then "serie" else "película")
    ensures m.Listing? ==> 1 <= |m.offers| <= 3
    ensures m.Listing? ==> (Subscription(p.flatrate) in m.offers <==> p.flatrate != [])
    ensures m.Listing? ==> (Rental(p.rent) in m.offers <==> p.rent != [])
    ensures m.Listing? ==> (Purchase(p.buy) in m.offers <==> p.buy != [])
    ensures m.Listing? ==> forall i, j :: 0 <= i < j < |m.offers| ==> Rank(m.offers[i]) < Rank(m.offers[j])
    ensures m.Listing? ==> forall i :: 0 <= i < |m.offers| ==> m.offers[i].names != []
    ensures m.Listing? ==> forall i :: 0 <= i < |m.offers| ==> m.offers[i] in [Subscription(p.flatrate), Rental(p.rent), Purchase(p.buy)]
  {
    if !p.available then NotAvailable
    else
      var offers := Offers(p);
      if offers == [] then NotAvailable
      else Listing(if ct == Tv then "serie" else "película", offers)
  }

  /** The offer kinds with at least one platform, in the order subscription, rental, purchase. */
  function Offers(p: Providers): (offers: seq<Offer>)
    ensures offers == [] <==> p.flatrate == [] && p.rent == [] && p.buy == []
    ensures |offers| <= 3
    ensures Subscription(p.flatrate) in offers <==> p.flatrate != []
    ensures Rental(p.rent) in offers <==> p.rent != []
    ensures Purchase(p.buy) in offers <==> p.buy != []
    ensures forall i, j :: 0 <= i < j < |offers| ==> Rank(offers[i]) < Rank(offers[j])
    ensures forall i :: 0 <= i < |offers| ==> offers[i].names != []
    ensures forall i :: 0 <= i < |offers| ==> offers[i] in [Subscription(p.flatrate), Rental(p.rent), Purchase(p.buy)]
  {
    (if p.flatrate != [] then [Subscription(p.flatrate)] else [])
    + (if p.rent != [] then [Rental(p.rent)] else [])
    + (if p.buy != [] then [Purchase(p.buy)] else [])
  }

  /** The position an offer kind takes in the message. */
  function Rank(o: Offer): nat {
    match o
    case Subscription(_) => 0
    case Rental(_) => 1
    case Purchase(_) => 2
  }

  /**
   Composed, the two give the "not available" text exactly when the chosen
   region has no named provider in any offer kind.
   */
  lemma ProvidersMessageNotAvailable(results: map<string, RegionInfo>, configured: string, ct: ContentType)
    ensures var region := ProviderRegion(configured);
      FormatProviders(WatchProviders(results, configured), ct) == NotAvailable <==>
        region !in results
        || (forall x :: x in results[region].flatrate + results[region].rent + results[region].buy ==> x == "")
  {
    var region := ProviderRegion(configured);
    if region in results {
      var info := results[region];
      var all := info.flatrate + info.rent + info.buy;
      assert forall x :: x in all <==> x in info.flatrate || x in info.rent || x in info.buy;
      if Named(info.flatrate) != [] {
        assert Named(info.flatrate)[0] in Named(info.flatrate);
      }
      if Named(info.rent) != [] {
        assert Named(info.rent)[0] in Named(info.rent);
      }
      if Named(info.buy) != [] {
        assert Named(info.buy)[0] in Named(info.buy);
      }
      if exists x :: x in all && x != "" {
        var x :| x in all && x != "";
        assert x in Named(info.flatrate) || x in Named(info.rent) || x in Named(info.buy);
      }
    }
  }

  // ---------------------------------------------------------------------------
  // Selection: the loop of `build_recommendations_from_tmdb`.
  // ---------------------------------------------------------------------------

  /** What the details request returns, reduced to the fields the reply logic reads; "" is a missing overview. */
  datatype Details = Details(overview: string, seasons: Value, episodes: Value)

  /** The catalog requests a recommendation makes, each returning None when the request fails. */
  datatype Catalog = Catalog(
    details: (ContentType, Value) -> Option<Details>,
    providers: (ContentType, Value) -> Option<map<string, RegionInfo>>,
    region: string)

  /** One recommendation, reduced to what `_try_recommend` inspects. */
  datatype Rec = Rec(id: Value, overview: string, seasons: Value, episodes: Value, providers: ProvidersMessage)

  const NoOverview: string := "Sin sinopsis disponible."

  /**
   The body of the loop for one result with a truthy id: the details and
   the providers are requested (either failure raises out of the builder),
   a missing overview is replaced by the fixed text, and seasons and
   episodes are read for series only.
   */
  function FetchRec(ct: ContentType, id: Value, cat: Catalog): (r: Result<Rec, PyError>)
    ensures r.Err? <==> cat.details(ct, id).None? || cat.providers(ct, id).None?
    ensures r.Err? ==> r.error == HttpError
    ensures r.Ok? ==> r.value.id == id && r.value.overview != ""
    ensures r.Ok? && ct == Movie ==> r.value.seasons == VNone && r.value.episodes == VNone
  {
    match cat.details(ct, id)
    case None => Err(HttpError)
    case Some(d) =>
      match cat.providers(ct, id)
      case None => Err(HttpError)
      case Some(regions) =>
        var overview := if d.overview != "" then d.overview else NoOverview;
        var seasons := if ct == Tv then d.seasons else VNone;
        var episodes := if ct == Tv then d.episodes else VNone;
        Ok(Rec(id, overview, seasons, episodes, FormatProviders(WatchProviders(regions, cat.region), ct)))
  }

  /**
   A fetched record is made of what was fetched: the overview as the
   details give it, or the fixed text when they give none; the series
   counts of the details for a series; and the providers message for the
   configured region of the providers response.
   */
  lemma FetchRecFields(ct: ContentType, id: Value, cat: Catalog)
    requires FetchRec(ct, id, cat).Ok?
    ensures var d := cat.details(ct, id).value;
      var r := FetchRec(ct, id, cat).value;
      && (d.overview != "" ==> r.overview == d.overview)
      && (d.overview == "" ==> r.overview == NoOverview)
      && (ct == Tv ==> r.seasons == d.seasons && r.episodes == d.episodes)
      && r.providers == FormatProviders(WatchProviders(cat.providers(ct, id).value, cat.region), ct)
  {
  }

  /** The ids of the results that have a truthy id, in order. */
  function TruthyIds(ids: seq<Value>): (r: seq<Value>)
    ensures |r| <= |ids|
    ensures forall i :: 0 <= i < |r| ==> Truthy(r[i])
  {
    if ids == [] then []
    else if Truthy(ids[0]) then [ids[0]] + TruthyIds(ids[1..])
    else TruthyIds(ids[1..])
  }

  /** The ids kept are exactly the truthy ones. */
  lemma {:induction false} TruthyIdsMembers(ids: seq<Value>)
    ensures forall x :: x in TruthyIds(ids) <==> x in ids && Truthy(x)
    decreases |ids|
  {
    if ids != [] {
      TruthyIdsMembers(ids[1..]);
      assert ids == [ids[0]] + ids[1..];
    }
  }

  /** One id is kept exactly when it is truthy, in front of the rest. */
  lemma TruthyIdsCons(x: Value, xs: seq<Value>)
    ensures TruthyIds([x] + xs) == (if Truthy(x) then [x] else []) + TruthyIds(xs)
  {
    assert ([x] + xs)[0] == x;
    assert ([x] + xs)[1..] == xs;
  }

  /**
   The filter keeps the input order: filtering a concatenation is
   concatenating the filtered parts.
   */
  lemma {:induction false} TruthyIdsAppend(a: seq<Value>, b: seq<Value>)
    ensures TruthyIds(a + b) == TruthyIds(a) + TruthyIds(b)
    decreases |a|
  {
    if a == [] {
      assert a + b == b;
    } else {
      var head := if Truthy(a[0]) then [a[0]] else [];
      assert a == [a[0]] + a[1..];
      assert a + b == [a[0]] + (a[1..] + b);
      TruthyIdsCons(a[0], a[1..] + b);
      TruthyIdsCons(a[0], a[1..]);
      TruthyIdsAppend(a[1..], b);
      assert head + (TruthyIds(a[1..]) + TruthyIds(b)) == (head + TruthyIds(a[1..])) + TruthyIds(b);
    }
  }

  /** Fetching each id in turn: the recommendations, or the first failure. */
  function FetchAll(ct: ContentType, ids: seq<Value>, cat: Catalog): (r: Result<seq<Rec>, PyError>)
    ensures r.Err? <==> exists i :: 0 <= i < |ids| && FetchRec(ct, ids[i], cat).Err?
    ensures r.Ok? ==> |r.value| == |ids| && forall i :: 0 <= i < |ids| ==> r.value[i] == FetchRec(ct, ids[i], cat).value
  {
    if ids == [] then Ok([])
    else
      match FetchRec(ct, ids[0], cat)
      case Err(e) => Err(e)
      case Ok(rec) =>
        var rest := FetchAll(ct, ids[1..], cat);
        assert forall i :: 0 < i < |ids| ==> ids[1..][i - 1] == ids[i];
        if rest.Err? then rest else Ok([rec] + rest.value)
  }

  /**
   The `for item in results` loop as written: results without a truthy id
   are skipped, each other one is fetched and appended, and the loop stops
   as soon as `max_recs` recommendations are gathered.
   */
  function Collect(ct: ContentType, ids: seq<Value>, maxRecs: int, cat: Catalog, recs: seq<Rec>): Result<seq<Rec>, PyError>
    decreases |ids|
  {
    if ids == [] then Ok(recs)
    else if !Truthy(ids[0]) then Collect(ct, ids[1..], maxRecs, cat, recs)
    else
      match FetchRec(ct, ids[0], cat)
      case Err(e) => Err(e)
      case Ok(rec) =>
        if |recs + [rec]| >= maxRecs then Ok(recs + [rec])
        else Collect(ct, ids[1..], maxRecs, cat, recs + [rec])
  }

  /**
   `build_recommendations_from_tmdb` over the ids of the results (null for
   an item without one): no results give no recommendations before the
   count is even read.
   */
  function BuildRecommendations(ct: ContentType, ids: seq<Value>, slots: Slots, cat: Catalog): (r: Result<seq<Rec>, PyError>)
    ensures r.Ok? ==> |r.value| <= 5 && |r.value| <= |TruthyIds(ids)|
    ensures r.Ok? ==> forall i :: 0 <= i < |r.value| ==> r.value[i].id == TruthyIds(ids)[i]
  {
    if ids == [] then Ok([])
    else
      match MaxRecs(slots)
      case Err(e) => Err(e)
      case Ok(m) =>
        CollectFromStart(ct, ids, m, cat);
        Collect(ct, ids, m, cat, [])
  }

  /** From an empty list, the loop gathers at most `m` titles, one per leading truthy id. */
  lemma CollectFromStart(ct: ContentType, ids: seq<Value>, m: int, cat: Catalog)
    requires 1 <= m <= 5
    ensures var r := Collect(ct, ids, m, cat, []);
      r.Ok? ==> |r.value| <= m && |r.value| <= |TruthyIds(ids)| && forall i :: 0 <= i < |r.value| ==> r.value[i].id == TruthyIds(ids)[i]
  {
    CollectIsFetchPrefix(ct, ids, m, cat, []);
    var sel := Selected(ids, m);
    assert |sel| <= m && |sel| <= |TruthyIds(ids)|;
    assert forall i :: 0 <= i < |sel| ==> sel[i] == TruthyIds(ids)[i];
    var f := FetchAll(ct, sel, cat);
    if f.Ok? {
      assert [] + f.value == f.value;
      assert Collect(ct, ids, m, cat, []) == f;
      assert forall i :: 0 <= i < |f.value| ==> f.value[i].id == sel[i];
    }
  }

  /** `min(a, b)` on naturals. */
  function Min(a: nat, b: nat): nat {
    if a < b then a else b
  }

  /** `recs` followed by the outcome of fetching more, or the failure of that fetch. */
  function AppendTo(recs: seq<Rec>, more: Result<seq<Rec>, PyError>): Result<seq<Rec>, PyError> {
    if more.Err? then more else Ok(recs + more.value)
  }

  /** The first `n` truthy ids, or all of them when there are fewer. */
  function Selected(ids: seq<Value>, n: int): seq<Value> {
    TruthyIds(ids)[..if n < 0 then 0 else Min(n, |TruthyIds(ids)|)]
  }

  lemma FetchAllCons(ct: ContentType, x: Value, xs: seq<Value>, cat: Catalog)
    ensures FetchAll(ct, [x] + xs, cat) ==
      if FetchRec(ct, x, cat).Err? then Err(FetchRec(ct, x, cat).error)
      else AppendTo([FetchRec(ct, x, cat).value], FetchAll(ct, xs, cat))
  {
    assert ([x] + xs)[0] == x;
    assert ([x] + xs)[1..] == xs;
  }

  lemma SelectedCons(ids: seq<Value>, n: int)
    requires ids != [] && n >= 1
    ensures Truthy(ids[0]) ==> Selected(ids, n) == [ids[0]] + Selected(ids[1..], n - 1)
    ensures !Truthy(ids[0]) ==> Selected(ids, n) == Selected(ids[1..], n)
  {
    if Truthy(ids[0]) {
      assert TruthyIds(ids) == [ids[0]] + TruthyIds(ids[1..]);
    }
  }

  /**
   The loop fetches exactly the first `maxRecs - |recs|` truthy ids, in
   order: it equals fetching that prefix of the truthy ids and appending
   the result to what was gathered.
   */
  lemma {:induction false} CollectIsFetchPrefix(ct: ContentType, ids: seq<Value>, maxRecs: int, cat: Catalog, recs: seq<Rec>)
    requires |recs| < maxRecs
    ensures Collect(ct, ids, maxRecs, cat, recs) == AppendTo(recs, FetchAll(ct, Selected(ids, maxRecs - |recs|), cat))
    decreases |ids|, 1
  {
    if ids == [] {
      assert recs + [] == recs;
    } else if !Truthy(ids[0]) {
      SelectedCons(ids, maxRecs - |recs|);
      CollectIsFetchPrefix(ct, ids[1..], maxRecs, cat, recs);
    } else {
      CollectTruthyHead(ct, ids, maxRecs, cat, recs);
    }
  }

  /** The case of `CollectIsFetchPrefix` where the first result has a truthy id and is fetched. */
  lemma {:induction false} CollectTruthyHead(ct: ContentType, ids: seq<Value>, maxRecs: int, cat: Catalog, recs: seq<Rec>)
    requires |recs| < maxRecs
    requires ids != [] && Truthy(ids[0])
    ensures Collect(ct, ids, maxRecs, cat, recs) == AppendTo(recs, FetchAll(ct, Selected(ids, maxRecs - |recs|), cat))
    decreases |ids|, 0
  {
    SelectedCons(ids, maxRecs - |recs|);
    var rest := Selected(ids[1..], maxRecs - |recs| - 1);
    FetchAllCons(ct, ids[0], rest, cat);
    if FetchRec(ct, ids[0], cat).Ok? {
      var rec := FetchRec(ct, ids[0], cat).value;
      if |recs + [rec]| >= maxRecs {
        assert rest == [];
        assert [rec] + [] == [rec];
      } else {
        CollectIsFetchPrefix(ct, ids[1..], maxRecs, cat, recs + [rec]);
        AppendAssoc(recs, rec, FetchAll(ct, rest, cat));
      }
    }
  }

  lemma AppendAssoc(recs: seq<Rec>, rec: Rec, more: Result<seq<Rec>, PyError>)
    ensures AppendTo(recs + [rec], more) == AppendTo(recs, AppendTo([rec], more))
  {
    if more.Ok? {
      assert recs + [rec] + more.value == recs + ([rec] + more.value);
    }
  }

  /**
   The selection `build_recommendations_from_tmdb` makes: nothing for no
   results; otherwise the first `max_recs` results with a truthy id (all of
   them when there are fewer), in input order, each fetched in turn; it
   raises when the count cannot be read or a fetch of one of those fails.
   */
  lemma BuildRecommendationsSpec(ct: ContentType, ids: seq<Value>, slots: Slots, cat: Catalog)
    ensures ids == [] ==> BuildRecommendations(ct, ids, slots, cat) == Ok([])
    ensures ids != [] && MaxRecs(slots).Err? ==> BuildRecommendations(ct, ids, slots, cat) == Err(MaxRecs(slots).error)
    ensures ids != [] && MaxRecs(slots).Ok? ==>
      var sel := Selected(ids, MaxRecs(slots).value);
      && sel == TruthyIds(ids)[..Min(MaxRecs(slots).value, |TruthyIds(ids)|)]
      && (BuildRecommendations(ct, ids, slots, cat).Err? <==> exists i :: 0 <= i < |sel| && FetchRec(ct, sel[i], cat).Err?)
      && (BuildRecommendations(ct, ids, slots, cat).Ok? ==>
            var recs := BuildRecommendations(ct, ids, slots, cat).value;
            && |recs| == |sel| <= 5
            && forall i :: 0 <= i < |recs| ==> recs[i].id == sel[i] && recs[i] == FetchRec(ct, sel[i], cat).value)
  {
    if ids != [] && MaxRecs(slots).Ok? {
      CollectIsFetchPrefix(ct, ids, MaxRecs(slots).value, cat, []);
      var sel := Selected(ids, MaxRecs(slots).value);
      if FetchAll(ct, sel, cat).Ok? {
        assert [] + FetchAll(ct, sel, cat).value == FetchAll(ct, sel, cat).value;
      }
    }
  }

  // ---------------------------------------------------------------------------
  // Overview truncation in `_try_recommend`.
  // ---------------------------------------------------------------------------

  /** The longest overview shown unabridged. */
  const OverviewLimit: nat := 380

  /** The index of the last space in `s`, if it has one. */
  function LastSpace(s: string): (r: Option<nat>)
    ensures r.None? <==> forall i :: 0 <= i < |s| ==> s[i] != ' '
    ensures r.Some? ==> r.value < |s| && s[r.value] == ' ' && forall i :: r.value < i < |s| ==> s[i] != ' '
  {
    if s == [] then None
    else if s[|s| - 1] == ' ' then Some(|s| - 1)
    else LastSpace(s[..|s| - 1])
  }

  /**
   `overview[:380].rsplit(" ", 1)[0] + "..."` for an overview longer than
   380 characters, the overview itself otherwise: a cut text is the first
   380 characters up to their last space (all 380 when there is none),
   followed by "...", so never longer than 383.
   */
  function TruncateOverview(s: string): (r: string)
    ensures |s| <= OverviewLimit ==> r == s
    ensures |s| > OverviewLimit ==>
      && 3 <= |r| <= OverviewLimit + 3
      && r[|r| - 3..] == "..."
      && (LastSpace(s[..OverviewLimit]).None? ==> r[..|r| - 3] == s[..OverviewLimit])
      && (LastSpace(s[..OverviewLimit]).Some? ==>
            var k := LastSpace(s[..OverviewLimit]).value;
            && r[..|r| - 3] == s[..k]
            && s[k] == ' '
            && forall i :: k < i < OverviewLimit ==> s[i] != ' ')
  {
    if |s| <= OverviewLimit then s
    else
      var head := s[..OverviewLimit];
      match LastSpace(head)
      case None => head + "..."
      case Some(k) => head[..k] + "..."
  }
}

=== FILE: chat.dfy ===
/**
 The per-user dialogue of `ChatManager` (app/chat.py): the session store,
 the routing of one incoming message, the processing of a free-text turn
 and the reply `_try_recommend` chooses. The language model and the catalog
 are oracles in `Env`; a turn returns the new store together with the
 reply, or with the exception that escaped (mutations made before it stay,
 as they do on the Python dict).

 The dialogue runs on either of two rule sets, chosen in `Env`: the code as
 written (`SlotMerge.MergeSlots`, `Questions.NextQuestion`,
 `Discover.DiscoverParams`), or the code with the merge, sequencer and
 query corrected (`Questions.MergeIntended`, `Questions.NextQuestionIntended`,
 `Discover.DiscoverParamsIntended`). Most lemmas hold for both; the written
 rules ask the same question forever after "indiferente" and answer every
 known restriction with the API error, as the lemmas near the end show.
 */
module Chat {
  import opened Wrappers
  import opened Values
  import opened Questions
  import SlotMerge
  import Text
  import Discover
  import Catalog

  // ---------------------------------------------------------------------------
  // Session store: `_get_state` and `_reset_state`.
  // ---------------------------------------------------------------------------

  /** One user's conversation state. */
  datatype Session = Session(slots: Slots, lastIntent: Value, lastQuestion: Option<Gate>, page: int)

  /** The state `_get_state` creates and `_reset_state` restores. */
  const Fresh: Session := Session(map[], VNone, None, 1)

  /** `conversation_state`: user id to session. */
  type Store = map<string, Session>

  /**
   `_get_state(user_id)`: the user's session, created fresh only when the
   user has none; no other entry is touched.
   */
  function GetState(store: Store, user: string): (res: (Store, Session))
    ensures user in res.0 && res.0[user] == res.1
    ensures user in store ==> res.1 == store[user]
    ensures user !in store ==> res.1 == Fresh
    ensures res.0.Keys == store.Keys + {user}
    ensures forall u :: u in store ==> res.0[u] == store[u]
  {
    if user in store then (store, store[user]) else (store[user := Fresh], Fresh)
  }

  /** Asking for the same user's state twice creates nothing the first call did not. */
  lemma GetStateIdempotent(store: Store, user: string)
    ensures GetState(GetState(store, user).0, user) == GetState(store, user)
  {
  }

  /** `_reset_state(user_id)`: the user's session becomes fresh and every other entry stays. */
  function ResetState(store: Store, user: string): (r: Store)
    ensures user in r && r[user] == Fresh
    ensures r.Keys == store.Keys + {user}
    ensures forall u :: u in store && u != user ==> r[u] == store[u]
  {
    store[user := Fresh]
  }

  // ---------------------------------------------------------------------------
  // The oracles and the replies.
  // ---------------------------------------------------------------------------

  /**
   What the language model answers for a message, after JSON parsing:
   the `intent` and `slots` fields, each None when absent (an absent or
   empty slot map is the same to the code).
   */
  datatype RawParse = RawParse(intent: Option<Value>, slots: Option<Slots>)

  /** What `extract_slots_from_text` returns. */
  datatype Parsed = Parsed(intent: Value, slots: Slots)

  /** Which definitions the session runs on: the code as written, or with its two corrections. */
  datatype Rules = AsWritten | Corrected

  /** The outside world a turn consults, and the rules it runs on. */
  datatype Env = Env(
    llm: string -> RawParse,
    discover: (ContentType, Discover.Params) -> Option<seq<Value>>,
    catalog: Catalog.Catalog,
    language: string,
    rules: Rules)

  /**
   The slot merge of either rule set. Both take a first answer verbatim,
   drop no stored key, invent no key, and let an informative value win.
   */
  function Merge(rules: Rules, current: Slots, incoming: Slots): (r: Slots)
    ensures |current| == 0 ==> r == incoming
    ensures current.Keys <= r.Keys <= current.Keys + incoming.Keys
    ensures forall k :: k in incoming && !SlotMerge.IsSkip(incoming[k]) ==> k in r && r[k] == incoming[k]
  {
    if rules == AsWritten then SlotMerge.MergeSlots(current, incoming)
    else
      MergeIntendedSpec(current, incoming);
      MergeIntended(current, incoming)
  }

  /** The question sequencer of either rule set. */
  function Next(rules: Rules, slots: Slots): Result<Option<Gate>, PyError> {
    if rules == AsWritten then NextQuestion(slots) else NextQuestionIntended(slots)
  }

  /** The query builder of either rule set. */
  function Query(rules: Rules, ct: ContentType, slots: Slots, page: int, language: string, region: string): Result<Discover.Params, PyError> {
    if rules == AsWritten then Discover.DiscoverParams(ct, slots, page, language, region)
    else Discover.DiscoverParamsIntended(ct, slots, page, language, region)
  }

  /** How the recommendation list is introduced. */
  datatype Intro = OneRecommendation | SeveralRecommendations | AnotherOption

  /** A series-only line of a recommendation. */
  datatype Extra = Seasons(count: Value) | Episodes(count: Value)

  /** One recommendation as the reply shows it. */
  datatype Shown = Shown(id: Value, overview: string, extras: seq<Extra>, providers: Catalog.ProvidersMessage)

  /** The kinds of reply, the prose left aside. */
  datatype Reply =
    | Welcome
    | Goodbye
    | Clarify
    | Ask(gate: Gate)
    | ApiError
    | NoResults
    | Recommendations(intro: Intro, shown: seq<Shown>)

  /** A reply, or the exception the turn raised. */
  datatype Outcome = Replied(reply: Reply) | Raised(error: PyError)

  /** The store after a turn and what the turn produced. */
  datatype Turn = Turn(store: Store, outcome: Outcome)

  /** Why `_try_recommend` was called: `reason="otra_opcion"` or the default. */
  datatype Reason = Normal | OtherOption

  // ---------------------------------------------------------------------------
  // The tail of `extract_slots_from_text`.
  // ---------------------------------------------------------------------------

  /**
   The defaults applied to the model's answer: intent "other" and an empty
   slot map when missing, and `cantidad_recs` set to 1 unless the model
   gave it; the model's own entries are kept as they are.
   */
  function FinishExtraction(raw: RawParse): (p: Parsed)
    ensures raw.intent.Some? ==> p.intent == raw.intent.value
    ensures raw.intent.None? ==> p.intent == VStr("other")
    ensures "cantidad_recs" in p.slots
    ensures raw.slots.None? ==> p.slots == map["cantidad_recs" := VInt(1)]
    ensures raw.slots.Some? ==> p.slots.Keys == raw.slots.value.Keys + {"cantidad_recs"}
    ensures raw.slots.Some? ==> forall k :: k in raw.slots.value ==> p.slots[k] == raw.slots.value[k]
    ensures raw.slots.Some? && "cantidad_recs" !in raw.slots.value ==> p.slots["cantidad_recs"] == VInt(1)
  {
    var intent := if raw.intent.Some? then raw.intent.value else VStr("other");
    var slots := if raw.slots.Some? then raw.slots.value else map[];
    Parsed(intent, if "cantidad_recs" in slots then slots else slots["cantidad_recs" := VInt(1)])
  }

  // ---------------------------------------------------------------------------
  // `_try_recommend`.
  // ---------------------------------------------------------------------------

  /**
   `(slots.get("tipo_contenido") or "movie").lower()`, anything but "tv"
   and "movie" coerced to movie; a truthy non-string raises
   AttributeError.
   */
  function RecommendType(slots: Slots): (r: Result<ContentType, PyError>)
    ensures r.Err? <==> Truthy(Get(slots, "tipo_contenido")) && !Get(slots, "tipo_contenido").VStr?
    ensures r.Err? ==> r.error == AttributeError
    ensures r == Ok(Tv) <==> Get(slots, "tipo_contenido").VStr? && Text.Lower(Get(slots, "tipo_contenido").s) == "tv"
  {
    match Or(Get(slots, "tipo_contenido"), VStr("movie"))
    case VStr(s) => Ok(if Text.Lower(s) == "tv" then Tv else Movie)
    case _ => Err(AttributeError)
  }

  /**
   The block of one recommendation: the overview cut to length, and the
   season and episode lines for series whose counts are not null.
   */
  function Show(ct: ContentType, rec: Catalog.Rec): (s: Shown)
    ensures s.id == rec.id && s.providers == rec.providers
    ensures s.overview == Catalog.TruncateOverview(rec.overview)
    ensures |s.overview| <= 383
    ensures ct == Movie ==> s.extras == []
    ensures ct == Tv ==> (Seasons(rec.seasons) in s.extras <==> rec.seasons != VNone)
    ensures ct == Tv ==> (Episodes(rec.episodes) in s.extras <==> rec.episodes != VNone)
    ensures forall i :: 0 <= i < |s.extras| ==>
      || (s.extras[i] == Seasons(rec.seasons) && rec.seasons != VNone)
      || (s.extras[i] == Episodes(rec.episodes) && rec.episodes != VNone)
    ensures |s.extras| == 2 ==> s.extras == [Seasons(rec.seasons), Episodes(rec.episodes)]
  {
    var extras :=
      if ct == Tv then
        (if rec.seasons != VNone then [Seasons(rec.seasons)] else [])
        + (if rec.episodes != VNone then [Episodes(rec.episodes)] else [])
      else [];
    Shown(rec.id, Catalog.TruncateOverview(rec.overview), extras, rec.providers)
  }

  /** The cards of a reply: one per recommendation, in order, each keeping its title's id and providers. */
  function ShowAll(ct: ContentType, recs: seq<Catalog.Rec>): (r: seq<Shown>)
    ensures |r| == |recs|
    ensures forall i :: 0 <= i < |recs| ==> r[i].id == recs[i].id && r[i].providers == recs[i].providers
    ensures forall i :: 0 <= i < |recs| ==> |r[i].overview| <= 383 && (ct == Movie ==> r[i].extras == [])
  {
    seq(|recs|, i requires 0 <= i < |recs| => Show(ct, recs[i]))
  }

  /**
   `_try_recommend` on a session's slots and page. Only the search is
   guarded: any failure building the query or running it gives the API
   error reply, while a failure fetching one title's details or providers
   (or reading the count) escapes.
   */
  function TryRecommend(slots: Slots, page: int, reason: Reason, env: Env): (out: Outcome)
    ensures RecommendType(slots).Err? ==> out == Raised(AttributeError)
    ensures out.Replied? ==> out.reply in {ApiError, NoResults} || (out.reply.Recommendations? && 1 <= |out.reply.shown| <= 5)
  {
    match RecommendType(slots)
    case Err(e) => Raised(e)
    case Ok(ct) =>
      match Query(env.rules, ct, slots, page, env.language, env.catalog.region)
      case Err(_) => Replied(ApiError)
      case Ok(params) =>
        match env.discover(ct, params)
        case None => Replied(ApiError)
        case Some(ids) =>
          match Catalog.BuildRecommendations(ct, ids, slots, env.catalog)
          case Err(e) => Raised(e)
          case Ok(recs) =>
            if recs == [] then Replied(NoResults)
            else
              var intro :=
                if reason == OtherOption then AnotherOption
                else if |recs| == 1 then OneRecommendation
                else SeveralRecommendations;
              Replied(Recommendations(intro, ShowAll(ct, recs)))
  }

  /**
   The replies of `_try_recommend`: the API error exactly when the query
   cannot be built or the search fails; otherwise no results exactly when
   the selection is empty, and a list of one to five recommendations, each
   overview at most 383 characters, without series lines for movies,
   introduced as another option exactly when asked for one.
   */
  lemma TryRecommendSpec(slots: Slots, page: int, reason: Reason, env: Env)
    ensures RecommendType(slots).Err? ==> TryRecommend(slots, page, reason, env) == Raised(AttributeError)
    ensures RecommendType(slots).Ok? ==>
      var ct := RecommendType(slots).value;
      var q := Query(env.rules, ct, slots, page, env.language, env.catalog.region);
      (TryRecommend(slots, page, reason, env) == Replied(ApiError) <==> q.Err? || env.discover(ct, q.value).None?)
    ensures TryRecommend(slots, page, reason, env).Replied? && TryRecommend(slots, page, reason, env).reply.Recommendations? ==>
      var r := TryRecommend(slots, page, reason, env).reply;
      var ct := RecommendType(slots).value;
      && 1 <= |r.shown| <= 5
      && (r.intro == AnotherOption <==> reason == OtherOption)
      && (reason == Normal ==> (r.intro == OneRecommendation <==> |r.shown| == 1))
      && (forall i :: 0 <= i < |r.shown| ==> |r.shown[i].overview| <= 383 && Truthy(r.shown[i].id))
      && (ct == Movie ==> forall i :: 0 <= i < |r.shown| ==> r.shown[i].extras == [])
    ensures TryRecommend(slots, page, reason, env).Replied? ==>
      TryRecommend(slots, page, reason, env).reply in {ApiError, NoResults} || TryRecommend(slots, page, reason, env).reply.Recommendations?
  {
    if RecommendType(slots).Ok? {
      var ct := RecommendType(slots).value;
      var q := Query(env.rules, ct, slots, page, env.language, env.catalog.region);
      if q.Ok? && env.discover(ct, q.value).Some? {
        var ids := env.discover(ct, q.value).value;
        Catalog.BuildRecommendationsSpec(ct, ids, slots, env.catalog);
      }
    }
  }

  /**
   Once the search answers, a failure while building the list escapes; the
   no-results reply comes exactly when no result carries a truthy id; and
   otherwise the reply shows one card per title built, for the leading
   truthy ids in the order of the results, as many as the clamped count
   allows and the results offer.
   */
  lemma TryRecommendShowsSelection(slots: Slots, page: int, reason: Reason, env: Env)
    requires RecommendType(slots).Ok?
    requires var q := Query(env.rules, RecommendType(slots).value, slots, page, env.language, env.catalog.region);
      q.Ok? && env.discover(RecommendType(slots).value, q.value).Some?
    ensures var ct := RecommendType(slots).value;
      var ids := env.discover(ct, Query(env.rules, ct, slots, page, env.language, env.catalog.region).value).value;
      var built := Catalog.BuildRecommendations(ct, ids, slots, env.catalog);
      var out := TryRecommend(slots, page, reason, env);
      && (built.Err? ==> out == Raised(built.error))
      && (built.Ok? ==> (out == Replied(NoResults) <==> Catalog.TruthyIds(ids) == []))
      && (out.Replied? && out.reply.Recommendations? ==>
            && |out.reply.shown| <= |Catalog.TruthyIds(ids)|
            && forall i :: 0 <= i < |out.reply.shown| ==> out.reply.shown[i].id == Catalog.TruthyIds(ids)[i])
      && (built.Ok? && built.value != [] ==>
            && out.Replied? && out.reply.Recommendations?
            && out.reply.shown == ShowAll(ct, built.value)
            && Catalog.MaxRecs(slots).Ok?
            && |out.reply.shown| == Catalog.Min(Catalog.MaxRecs(slots).value, |Catalog.TruthyIds(ids)|))
  {
    var ct := RecommendType(slots).value;
    var ids := env.discover(ct, Query(env.rules, ct, slots, page, env.language, env.catalog.region).value).value;
    Catalog.BuildRecommendationsSpec(ct, ids, slots, env.catalog);
  }

  /**
   With a list of string restrictions, the corrected query always reaches
   the search and excludes genres exactly when some restriction is known;
   the API error then comes only from a failed search.
   */
  lemma RestrictionsReachSearch(slots: Slots, page: int, reason: Reason, env: Env)
    requires env.rules == Corrected
    requires RecommendType(slots).Ok?
    requires Get(slots, "restricciones").VList?
    requires forall i :: 0 <= i < |Get(slots, "restricciones").items| ==> Get(slots, "restricciones").items[i].VStr?
    requires Discover.Preferences(RecommendType(slots).value, slots, map[]).Ok?
    ensures var ct := RecommendType(slots).value;
      var q := Discover.DiscoverParamsIntended(ct, slots, page, env.language, env.catalog.region);
      var rs := Get(slots, "restricciones").items;
      && q.Ok?
      && (Discover.WithoutGenres in q.value <==> exists i :: 0 <= i < |rs| && Discover.Mapped(rs[i]))
      && (TryRecommend(slots, page, reason, env) == Replied(ApiError) <==> env.discover(ct, q.value).None?)
  {
    var ct := RecommendType(slots).value;
    Discover.IntendedExcludesRestrictedGenres(ct, slots, page, env.language, env.catalog.region);
    TryRecommendSpec(slots, page, reason, env);
  }

  /**
   As written, a list of restrictions with a known keyword and no nested
   list gets the API-error reply, whatever the search would have returned:
   the query raises UnboundLocalError and `_try_recommend` reports it as
   an API failure.
   */
  lemma WrittenRestrictionGivesApiError(slots: Slots, page: int, reason: Reason, env: Env)
    requires env.rules == AsWritten
    requires RecommendType(slots).Ok?
    requires Get(slots, "restricciones").VList?
    requires forall i :: 0 <= i < |Get(slots, "restricciones").items| ==> !Get(slots, "restricciones").items[i].VList?
    requires exists i :: 0 <= i < |Get(slots, "restricciones").items| && Discover.Mapped(Get(slots, "restricciones").items[i])
    ensures TryRecommend(slots, page, reason, env) == Replied(ApiError)
  {
    var ct := RecommendType(slots).value;
    var rs := Get(slots, "restricciones").items;
    assert Or(Get(slots, "restricciones"), VList([])) == VList(rs);
    Discover.UnboundExactlyOnKnownRestriction(ct, slots, page, env.language, env.catalog.region);
    assert Query(env.rules, ct, slots, page, env.language, env.catalog.region) == Err(UnboundLocalError);
  }

  // ---------------------------------------------------------------------------
  // `handle_message` and `_process_user_message`.
  // ---------------------------------------------------------------------------

  const Commands: seq<string> := ["/start", "/reset", "/reiniciar"]
  const Greetings: seq<string> := ["hola", "holaa", "holis", "buenas", "buen dia", "buen día", "hey"]
  const MoreRequests: seq<string> := ["otra", "otra peli", "otra película", "otra serie"]
  const Farewells: seq<string> := ["chau", "chao", "me voy", "/end", "/stop"]

  /** `any(kw in lower for kw in greetings)`: some greeting occurs inside the text. */
  predicate HasGreeting(lower: string) {
    exists i :: 0 <= i < |Greetings| && Text.Contains(lower, Greetings[i])
  }

  /** The branch of `handle_message` a message takes. */
  datatype Route = Command | Greeting | More | Farewell | FreeText

  /** The stripped, lower-cased text `handle_message` routes on. */
  function Normalized(text: string): string {
    Text.Lower(Text.Strip(text))
  }

  /** The checks of `handle_message`, in their order: the first that matches decides. */
  function RouteOf(lower: string): (r: Route)
    ensures r == Command <==> lower in Commands
    ensures r == Greeting <==> lower !in Commands && HasGreeting(lower)
    ensures r == More <==> lower !in Commands && !HasGreeting(lower) && lower in MoreRequests
    ensures r == Farewell <==> lower !in Commands && !HasGreeting(lower) && lower !in MoreRequests && lower in Farewells
  {
    if lower in Commands then Command
    else if HasGreeting(lower) then Greeting
    else if lower in MoreRequests then More
    else if lower in Farewells then Farewell
    else FreeText
  }

  /**
   What a free-text message does to the session, before any question is
   chosen: "other" becomes "answer" once a question is pending, the
   extraction is merged into the slots, and the page goes back to 1.
   */
  function Absorb(rules: Rules, st: Session, parsed: Parsed): (st1: Session)
    ensures st1.slots == Merge(rules, st.slots, parsed.slots)
    ensures st1.page == 1
    ensures st1.lastQuestion == st.lastQuestion
    ensures parsed.intent == VStr("other") && st.lastQuestion.Some? ==> st1.lastIntent == VStr("answer")
    ensures !(parsed.intent == VStr("other") && st.lastQuestion.Some?) ==> st1.lastIntent == parsed.intent
    ensures st1.lastIntent == VStr("other") <==> parsed.intent == VStr("other") && st.lastQuestion.None?
  {
    var intent := if parsed.intent == VStr("other") && st.lastQuestion.Some? then VStr("answer") else parsed.intent;
    Session(Merge(rules, st.slots, parsed.slots), intent, st.lastQuestion, 1)
  }

  /**
   What follows the update of a free-text turn: the clarification for
   "other", else the next question (which becomes the pending one), else a
   recommendation attempt.
   */
  function Respond(st1: Session, env: Env): (res: (Session, Outcome))
    ensures st1.lastIntent == VStr("other") ==> res == (st1, Replied(Clarify))
    ensures res.0 == st1 || (res.0 == st1.(lastQuestion := res.0.lastQuestion) && res.1.Replied? && res.1.reply.Ask?)
    ensures res.1.Replied? && res.1.reply.Ask? ==>
      st1.lastIntent != VStr("other")
      && Next(env.rules, st1.slots) == Ok(Some(res.1.reply.gate))
      && res.0 == st1.(lastQuestion := Some(res.1.reply.gate))
    ensures res.1 == Replied(Clarify) <==> st1.lastIntent == VStr("other")
    ensures st1.lastIntent != VStr("other") ==>
      var nx := Next(env.rules, st1.slots);
      && (nx.Err? ==> res == (st1, Raised(nx.error)))
      && (nx.Ok? && nx.value.Some? ==> res == (st1.(lastQuestion := nx.value), Replied(Ask(nx.value.value))))
      && (nx == Ok(None) ==> res == (st1, TryRecommend(st1.slots, 1, Normal, env)))
  {
    if st1.lastIntent == VStr("other") then (st1, Replied(Clarify))
    else
      match Next(env.rules, st1.slots)
      case Err(e) => (st1, Raised(e))
      case Ok(Some(g)) => (st1.(lastQuestion := Some(g)), Replied(Ask(g)))
      case Ok(None) =>
        var out := TryRecommend(st1.slots, 1, Normal, env);
        TryRecommendSpec(st1.slots, 1, Normal, env);
        (st1, out)
  }

  /**
   `_process_user_message(user_id, text)`: the extractor runs on the text,
   the session takes in its answer, and the reply follows.
   */
  function ProcessUserMessage(store: Store, user: string, text: string, env: Env): (t: Turn)
    ensures user in t.store && t.store[user].page == 1
    ensures t.store == store[user := t.store[user]]
    ensures t.outcome == Replied(Clarify) <==> t.store[user].lastIntent == VStr("other")
  {
    var st := GetState(store, user).1;
    var st1 := Absorb(env.rules, st, FinishExtraction(env.llm(text)));
    var res := Respond(st1, env);
    Turn(store[user := res.0], res.1)
  }

  /**
   `handle_message(user_id, text)`: on the stripped, lower-cased text, a
   command resets and welcomes; a text containing a greeting welcomes and
   changes nothing; an "otra" request turns the page and recommends again;
   a farewell resets; anything else is processed as a free-text turn.
   */
  function HandleMessage(store: Store, user: string, text: string, env: Env): (t: Turn)
    ensures t.store.Keys <= store.Keys + {user}
    ensures forall u :: u in store && u != user ==> u in t.store && t.store[u] == store[u]
  {
    var raw := Text.Strip(text);
    match RouteOf(Text.Lower(raw))
    case Command => Turn(ResetState(store, user), Replied(Welcome))
    case Greeting => Turn(store, Replied(Welcome))
    case More =>
      var st := GetState(store, user).1;
      var st1 := st.(page := st.page + 1);
      Turn(store[user := st1], TryRecommend(st1.slots, st1.page, OtherOption, env))
    case Farewell => Turn(ResetState(store, user), Replied(Goodbye))
    case FreeText => ProcessUserMessage(store, user, raw, env)
  }

  /** A command replaces the user's session with a fresh one, welcomes, and leaves the others alone. */
  lemma CommandResets(store: Store, user: string, text: string, env: Env)
    requires Normalized(text) in Commands
    ensures var t := HandleMessage(store, user, text, env);
      && t.outcome == Replied(Welcome)
      && user in t.store && t.store[user] == Fresh
      && forall u :: u in store && u != user ==> u in t.store && t.store[u] == store[u]
  {
  }

  /**
   A text containing a greeting, and not a command, welcomes and leaves
   the whole store as it was, even when it also says goodbye or asks for
   another title: the greeting is checked first.
   */
  lemma GreetingKeepsState(store: Store, user: string, text: string, env: Env)
    requires Normalized(text) !in Commands
    requires HasGreeting(Normalized(text))
    ensures HandleMessage(store, user, text, env) == Turn(store, Replied(Welcome))
  {
  }

  /** "hola, chau" is a greeting, not a farewell: nothing is reset. */
  lemma GreetingBeforeFarewell(store: Store, user: string, env: Env)
    ensures HandleMessage(store, user, "hola, chau", env) == Turn(store, Replied(Welcome))
  {
    HolaChauHasGreeting();
    GreetingKeepsState(store, user, "hola, chau", env);
  }

  /** "hola, chau" normalises to itself, is not a command, and contains the greeting "hola". */
  lemma HolaChauHasGreeting()
    ensures Normalized("hola, chau") !in Commands
    ensures HasGreeting(Normalized("hola, chau"))
  {
    var lower := "hola, chau";
    Text.StripNoSpace(lower);
    Text.LowerNoCapitals(lower);
    assert Normalized(lower) == lower;
    assert Greetings[0] == "hola";
    assert lower[0..4] == "hola";
    assert Text.OccursAt(lower, "hola", 0);
    assert Text.Contains(lower, Greetings[0]);
  }

  /** The three lists of fixed messages have nothing in common. */
  lemma RouteListsDisjoint()
    ensures forall s :: s in MoreRequests ==> s !in Commands
    ensures forall s :: s in Farewells ==> s !in Commands && s !in MoreRequests
  {
  }

  /** No "otra" request contains a greeting: every greeting starts with 'h' or 'b', which none of them holds. */
  lemma MoreRequestsAreNoGreetings(lower: string)
    requires lower in MoreRequests
    ensures !HasGreeting(lower)
  {
    assert forall c :: c in lower ==> c != 'h' && c != 'b';
    forall i | 0 <= i < |Greetings|
      ensures !Text.Contains(lower, Greetings[i])
    {
      Text.ContainsFirstChar(lower, Greetings[i]);
    }
  }

  /**
   An "otra" request turns the user's page by exactly one (a new user starts
   from page 1) and keeps the slots, the last intent and the pending
   question; the recommendation runs on that page as another option.
   */
  lemma MoreTurnsPage(store: Store, user: string, text: string, env: Env)
    requires Normalized(text) in MoreRequests
    ensures var t := HandleMessage(store, user, text, env);
      var before := if user in store then store[user] else Fresh;
      && user in t.store
      && t.store[user] == before.(page := before.page + 1)
      && t.outcome == TryRecommend(before.slots, before.page + 1, OtherOption, env)
      && forall u :: u in store && u != user ==> u in t.store && t.store[u] == store[u]
  {
    var lower := Normalized(text);
    MoreRequestsAreNoGreetings(lower);
    RouteListsDisjoint();
    assert RouteOf(lower) == More;
    MoreRoute(store, user, text, env);
  }

  /** What the "otra" branch of `handle_message` does, once the text is routed there. */
  lemma MoreRoute(store: Store, user: string, text: string, env: Env)
    requires RouteOf(Normalized(text)) == More
    ensures var st := GetState(store, user).1;
      HandleMessage(store, user, text, env) ==
        Turn(store[user := st.(page := st.page + 1)], TryRecommend(st.slots, st.page + 1, OtherOption, env))
  {
  }

  /**
   No farewell contains a greeting: every greeting starts with "ho", "bu"
   or "he", and no farewell has those two letters side by side.
   */
  lemma FarewellsAreNoGreetings(lower: string)
    requires lower in Farewells
    ensures !HasGreeting(lower)
  {
    assert forall j :: 0 <= j < |lower| - 1 ==>
      !(lower[j] == 'h' && (lower[j + 1] == 'o' || lower[j + 1] == 'e')) && !(lower[j] == 'b' && lower[j + 1] == 'u');
    forall i | 0 <= i < |Greetings|
      ensures !Text.Contains(lower, Greetings[i])
    {
      Text.ContainsFirstPair(lower, Greetings[i]);
    }
  }

  /** A farewell resets the user's session and says goodbye. */
  lemma FarewellResets(store: Store, user: string, text: string, env: Env)
    requires Normalized(text) in Farewells
    ensures var t := HandleMessage(store, user, text, env);
      && t.outcome == Replied(Goodbye)
      && user in t.store && t.store[user] == Fresh
      && forall u :: u in store && u != user ==> u in t.store && t.store[u] == store[u]
  {
    var lower := Normalized(text);
    RouteListsDisjoint();
    FarewellsAreNoGreetings(lower);
    assert RouteOf(lower) == Farewell;
    assert HandleMessage(store, user, text, env) == Turn(ResetState(store, user), Replied(Goodbye));
  }

  /**
   A processed message stores the merge of the old slots with the
   extraction, resets the page to 1 and records the intent, promoted from
   "other" to "answer" exactly when a question is pending; a remaining
   "other" is answered with the clarification and keeps the pending
   question; otherwise the pending question changes only to the question
   asked, which is the one the sequencer returns for the merged slots. Past
   the clarification, the sequencer decides: its error escapes, its gate is
   asked and becomes the pending question, and when it has none the
   recommendation runs on page 1.
   */
  lemma ProcessedTurn(store: Store, user: string, text: string, env: Env)
    ensures var t := ProcessUserMessage(store, user, text, env);
      var before := if user in store then store[user] else Fresh;
      var parsed := FinishExtraction(env.llm(text));
      var promoted := parsed.intent == VStr("other") && before.lastQuestion.Some?;
      && user in t.store
      && t.store[user].slots == Merge(env.rules, before.slots, parsed.slots)
      && t.store[user].page == 1
      && t.store[user].lastIntent == (if promoted then VStr("answer") else parsed.intent)
      && (t.store[user].lastIntent == VStr("other") <==> t.outcome == Replied(Clarify))
      && (t.outcome.Replied? && t.outcome.reply.Ask? ==>
            Next(env.rules, t.store[user].slots) == Ok(Some(t.outcome.reply.gate))
            && t.store[user].lastQuestion == Some(t.outcome.reply.gate))
      && (!(t.outcome.Replied? && t.outcome.reply.Ask?) ==> t.store[user].lastQuestion == before.lastQuestion)
      && (forall u :: u in store && u != user ==> u in t.store && t.store[u] == store[u])
    ensures var t := ProcessUserMessage(store, user, text, env);
      var before := if user in store then store[user] else Fresh;
      var parsed := FinishExtraction(env.llm(text));
      var slots := Merge(env.rules, before.slots, parsed.slots);
      var nx := Next(env.rules, slots);
      t.store[user].lastIntent != VStr("other") ==>
        && (nx.Err? ==> t.outcome == Raised(nx.error))
        && (nx.Ok? && nx.value.Some? ==> t.outcome == Replied(Ask(nx.value.value)) && t.store[user].lastQuestion == nx.value)
        && (nx == Ok(None) ==> t.outcome == TryRecommend(slots, 1, Normal, env))
  {
  }

  /**
   As written, a session waiting for the movie length that is answered
   "indiferente" asks for the movie length again: the merge drops the
   answer and the gate still finds the slot empty.
   */
  lemma WrittenIndifferentLengthAskedAgain(user: string, text: string, env: Env)
    requires env.rules == AsWritten
    requires env.llm(text) == RawParse(Some(VStr("answer")), Some(map["duracion_peli" := VStr(SlotMerge.Indifferent)]))
    ensures var s := map["tipo_contenido" := VStr("movie"), "generos" := VList([VStr("comedia")]), "cantidad_recs" := VInt(1)];
      var store := map[user := Session(s, VStr("answer"), Some(DuracionPeli), 1)];
      var t := ProcessUserMessage(store, user, text, env);
      && t.outcome == Replied(Ask(DuracionPeli))
      && t.store[user].lastQuestion == Some(DuracionPeli)
  {
    var s := map["tipo_contenido" := VStr("movie"), "generos" := VList([VStr("comedia")]), "cantidad_recs" := VInt(1)];
    var answer := map["duracion_peli" := VStr(SlotMerge.Indifferent), "cantidad_recs" := VInt(1)];
    var parsed := FinishExtraction(env.llm(text));
    assert parsed == Parsed(VStr("answer"), answer);
    IndifferentLengthIsAskedAgain();
    var st1 := Absorb(AsWritten, Session(s, VStr("answer"), Some(DuracionPeli), 1), parsed);
    assert st1.slots == SlotMerge.MergeSlots(s, answer);
    assert Next(AsWritten, st1.slots) == Ok(Some(DuracionPeli));
    assert Respond(st1, env) == (st1.(lastQuestion := Some(DuracionPeli)), Replied(Ask(DuracionPeli)));
  }

  // ---------------------------------------------------------------------------
  // What every session keeps true.
  // ---------------------------------------------------------------------------

  /**
   The invariant of a session: the page is at least 1; once a question is
   pending the last intent is never "other"; and once any slot is stored,
   the requested count is among them, since the extraction always supplies
   it and the merge never drops a key.
   */
  predicate SessionOk(st: Session) {
    && st.page >= 1
    && (st.lastQuestion.Some? ==> st.lastIntent != VStr("other"))
    && (|st.slots| == 0 || "cantidad_recs" in st.slots)
  }

  predicate StoreOk(store: Store) {
    forall u :: u in store ==> SessionOk(store[u])
  }

  /** A free-text turn keeps the session invariant. */
  lemma ProcessPreservesSessionOk(store: Store, user: string, text: string, env: Env)
    requires StoreOk(store)
    ensures StoreOk(ProcessUserMessage(store, user, text, env).store)
  {
    ProcessedTurn(store, user, text, env);
  }

  /** Every message, whatever it says and whatever the oracles answer, keeps every session well-formed. */
  lemma HandleMessagePreservesStoreOk(store: Store, user: string, text: string, env: Env)
    requires StoreOk(store)
    ensures StoreOk(HandleMessage(store, user, text, env).store)
  {
    if RouteOf(Normalized(text)) == FreeText {
      ProcessPreservesSessionOk(store, user, Text.Strip(text), env);
    }
  }

  /**
   A pending question is never dropped except by a command or a farewell:
   every other message leaves one pending (the same or the next one).
   */
  lemma PendingQuestionPersists(store: Store, user: string, text: string, env: Env)
    requires user in store && store[user].lastQuestion.Some?
    requires RouteOf(Normalized(text)) != Command && RouteOf(Normalized(text)) != Farewell
    ensures var t := HandleMessage(store, user, text, env);
      user in t.store && t.store[user].lastQuestion.Some?
  {
    if RouteOf(Normalized(text)) == FreeText {
      ProcessedTurn(store, user, Text.Strip(text), env);
    }
  }

  /**
   Once a question has been asked, a processed message never ends with the
   intent "other": the promotion turns it into "answer".
   */
  lemma NoClarifyOncePending(store: Store, user: string, text: string, env: Env)
    requires user in store && store[user].lastQuestion.Some?
    ensures var t := ProcessUserMessage(store, user, text, env);
      user in t.store && t.store[user].lastIntent != VStr("other") && t.outcome != Replied(Clarify)
  {
    ProcessedTurn(store, user, text, env);
  }
}

=== FILE: discover.dfy ===
/**
 The query builder of `discover_tmdb` (app/utils.py), up to the request
 itself: restrictions, genres, recency, movie length and popularity become
 TMDB discover parameters. As written, any restriction the table knows
 raises before a parameter exists, because `params` is written before it is
 bound; `DiscoverParamsIntended` is the builder with that ordering fixed.
 */
module Discover {
  import opened Wrappers
  import opened Values
  import Text
  import Genres

  /** A query parameter value: TMDB receives strings and integers. */
  datatype Param = PStr(s: string) | PInt(n: int)

  /** The TMDB discover parameters the builder can set. */
  datatype ParamKey =
    | Language | Region | IncludeAdult | Page
    | WithoutGenres | WithGenres
    | ReleaseFrom | ReleaseTo | FirstAirFrom | FirstAirTo
    | RuntimeAtMost | RuntimeAtLeast
    | SortBy | VotesAtLeast | VotesAtMost

  /** The name TMDB knows each parameter by. */
  function Name(k: ParamKey): string {
    match k
    case Language => "language"
    case Region => "region"
    case IncludeAdult => "include_adult"
    case Page => "page"
    case WithoutGenres => "without_genres"
    case WithGenres => "with_genres"
    case ReleaseFrom => "primary_release_date.gte"
    case ReleaseTo => "primary_release_date.lte"
    case FirstAirFrom => "first_air_date.gte"
    case FirstAirTo => "first_air_date.lte"
    case RuntimeAtMost => "with_runtime.lte"
    case RuntimeAtLeast => "with_runtime.gte"
    case SortBy => "sort_by"
    case VotesAtLeast => "vote_count.gte"
    case VotesAtMost => "vote_count.lte"
  }

  /** Distinct parameters go out under distinct names, so the query is a well-defined map of names. */
  lemma NameInjective(k1: ParamKey, k2: ParamKey)
    ensures Name(k1) == Name(k2) ==> k1 == k2
  {
  }

  type Params = map<ParamKey, Param>

  /** `restriccion_a_generos`: restriction keyword to the genre IDs it excludes, as text. */
  const RestrictionGenres: map<string, seq<string>> := map[
    "no_animacion" := ["16"],
    "no_terror" := ["27"],
    "no_romance" := ["10749"],
    "no_scifi" := ["878", "14"],
    "no_crimen" := ["80"],
    "no_guerra" := ["10752"]
  ]

  /** A restriction item the table knows. */
  predicate Mapped(r: Value) {
    r.VStr? && r.s in RestrictionGenres
  }

  /**
   The loop that fills `without`: `r in restriccion_a_generos` hashes `r`,
   so a list item raises TypeError; a known keyword contributes its IDs.
   */
  function Exclusions(rs: seq<Value>): (r: Result<seq<string>, PyError>)
    ensures r.Err? <==> exists i :: 0 <= i < |rs| && rs[i].VList?
    ensures r.Err? ==> r.error == TypeError
    ensures r.Ok? ==> (r.value == [] <==> forall i :: 0 <= i < |rs| ==> !Mapped(rs[i]))
  {
    if rs == [] then Ok([])
    else
      var rest := Exclusions(rs[1..]);
      assert forall i :: 0 < i < |rs| ==> rs[1..][i - 1] == rs[i];
      if rs[0].VList? then Err(TypeError)
      else if rest.Err? then rest
      else if Mapped(rs[0]) then Ok(RestrictionGenres[rs[0].s] + rest.value)
      else rest
  }

  /**
   The IDs the loop collects are exactly the table IDs of the known
   keywords among the restrictions.
   */
  lemma {:induction false} ExclusionsMembers(rs: seq<Value>)
    requires Exclusions(rs).Ok?
    ensures forall g :: g in Exclusions(rs).value <==>
      exists i :: 0 <= i < |rs| && Mapped(rs[i]) && g in RestrictionGenres[rs[i].s]
    decreases |rs|
  {
    if rs != [] {
      ExclusionsMembers(rs[1..]);
      assert forall i :: 0 < i < |rs| ==> rs[1..][i - 1] == rs[i];
      forall g | exists i :: 0 <= i < |rs| && Mapped(rs[i]) && g in RestrictionGenres[rs[i].s]
        ensures g in Exclusions(rs).value
      {
        var i :| 0 <= i < |rs| && Mapped(rs[i]) && g in RestrictionGenres[rs[i].s];
        if i > 0 {
          assert Mapped(rs[1..][i - 1]) && g in RestrictionGenres[rs[1..][i - 1].s];
        }
      }
    }
  }

  /**
   The loop extends `without` in the order of the restrictions: the IDs of
   a concatenation are the IDs of the first part followed by those of the
   second, and it raises when either part does.
   */
  lemma {:induction false} ExclusionsAppend(a: seq<Value>, b: seq<Value>)
    ensures Exclusions(a + b).Ok? <==> Exclusions(a).Ok? && Exclusions(b).Ok?
    ensures Exclusions(a + b).Ok? ==> Exclusions(a + b).value == Exclusions(a).value + Exclusions(b).value
    decreases |a|
  {
    if a == [] {
      assert a + b == b;
    } else {
      assert (a + b)[0] == a[0];
      assert (a + b)[1..] == a[1..] + b;
      ExclusionsAppend(a[1..], b);
      if Exclusions(a + b).Ok? && Mapped(a[0]) {
        var ids := RestrictionGenres[a[0].s];
        assert ids + (Exclusions(a[1..]).value + Exclusions(b).value) == (ids + Exclusions(a[1..]).value) + Exclusions(b).value;
      }
    }
  }

  /** `"no_animacion" in restricciones`: list membership for a list, substring test for a string. */
  predicate MentionsNoAnimation(restr: Value) {
    match restr
    case VList(xs) => VStr("no_animacion") in xs
    case VStr(s) => Text.Contains(s, "no_animacion")
    case _ => false
  }

  /** `",".join(str(g) for g in genre_ids)`. */
  function GenreList(ids: seq<nat>): string {
    Text.Join(seq(|ids|, i requires 0 <= i < |ids| => Text.Decimal(ids[i])), ",")
  }

  /** The parameters every query carries. */
  function BaseParams(page: int, language: string, region: string): Params {
    map[
      Language := PStr(language),
      Region := PStr(Text.Upper(region)),
      IncludeAdult := PStr("false"),
      Page := PInt(page)
    ]
  }

  /** `with_genres`: the resolved IDs joined by commas, when there are any. */
  function GenreStage(ids: seq<nat>, p: Params): Params
  {
    if ids != [] then p[WithGenres := PStr(GenreList(ids))] else p
  }

  /** Recency: "nuevo" bounds the release date from below, "clasico" from above. */
  function DateStage(ct: ContentType, novedad: Value, p: Params): Params
  {
    if novedad == VStr("nuevo") then p[DateFrom(ct) := PStr("2015-01-01")]
    else if novedad == VStr("clasico") then p[DateTo(ct) := PStr("2005-12-31")]
    else p
  }

  /** Movie length: "corta" caps the runtime at 100 minutes, "larga" asks for at least 130; series are untouched. */
  function RuntimeStage(ct: ContentType, dur: Value, p: Params): Params
  {
    if ct == Movie && dur == VStr("corta") then p[RuntimeAtMost := PInt(100)]
    else if ct == Movie && dur == VStr("larga") then p[RuntimeAtLeast := PInt(130)]
    else p
  }

  /**
   Popularity: "conocida" sorts by popularity with at least 500 votes,
   "joyita" by rating with 50 to 2000 votes, anything else by rating alone.
   */
  function FameStage(fama: Value, p: Params): Params
  {
    if fama == VStr("conocida") then p[SortBy := PStr("popularity.desc")][VotesAtLeast := PInt(500)]
    else if fama == VStr("joyita") then p[SortBy := PStr("vote_average.desc")][VotesAtLeast := PInt(50)][VotesAtMost := PInt(2000)]
    else p[SortBy := PStr("vote_average.desc")]
  }

  /** The preference stages applied in the order of the source, once the genre IDs are known. */
  function ApplyPreferences(ct: ContentType, slots: Slots, ids: seq<nat>, params: Params): Params {
    var p1 := GenreStage(ids, params);
    var p2 := DateStage(ct, Get(slots, "novedad"), p1);
    var p3 := RuntimeStage(ct, Get(slots, "duracion_peli"), p2);
    FameStage(Get(slots, "fama"), p3)
  }

  /**
   Genres, recency, movie length and popularity added to `params`; raises
   what reading or resolving `generos` raises.
   */
  function Preferences(ct: ContentType, slots: Slots, params: Params): Result<Params, PyError> {
    match IterateOrEmpty(Get(slots, "generos"))
    case Err(e) => Err(e)
    case Ok(names) =>
      match Genres.ResolveGenreIds(ct, names)
      case Err(e) => Err(e)
      case Ok(ids) => Ok(ApplyPreferences(ct, slots, ids, params))
  }

  /**
   The part of `discover_tmdb` before the preferences, as written: the
   restriction loop raises on a list item, and a known keyword sends it to
   the assignment into `params` before `params` is bound.
   */
  function WrittenBase(slots: Slots, page: int, language: string, region: string): Result<Params, PyError> {
    var restr := Or(Get(slots, "restricciones"), VList([]));
    match Iterate(restr)
    case Err(e) => Err(e)
    case Ok(rs) =>
      match Exclusions(rs)
      case Err(e) => Err(e)
      case Ok(without) =>
        if without != [] then Err(UnboundLocalError)
        else
          var base := BaseParams(page, language, region);
          Ok(if MentionsNoAnimation(restr) then base[WithoutGenres := PStr("16")] else base)
  }

  /**
   `discover_tmdb(content_type, slots, page)` up to the request: the query
   it would send, or the exception it raises first.
   */
  function DiscoverParams(ct: ContentType, slots: Slots, page: int, language: string, region: string): (r: Result<Params, PyError>)
    ensures r.Ok? ==>
      && Language in r.value && r.value[Language] == PStr(language)
      && Region in r.value && r.value[Region] == PStr(Text.Upper(region))
      && IncludeAdult in r.value && r.value[IncludeAdult] == PStr("false")
      && Page in r.value && r.value[Page] == PInt(page)
  {
    match WrittenBase(slots, page, language, region)
    case Err(e) => Err(e)
    case Ok(q) =>
      WrittenBaseSpec(slots, page, language, region);
      PreferencesFrame(ct, slots, q);
      Preferences(ct, slots, q)
  }

  /** The keys `Preferences` may write. */
  const PreferenceKeys: set<ParamKey> := {
    WithGenres,
    ReleaseFrom, ReleaseTo,
    FirstAirFrom, FirstAirTo,
    RuntimeAtMost, RuntimeAtLeast,
    SortBy, VotesAtLeast, VotesAtMost
  }

  predicate IsDateKey(k: ParamKey) {
    k.ReleaseFrom? || k.ReleaseTo? || k.FirstAirFrom? || k.FirstAirTo?
  }

  /** The lower bound on the release date of a content type: the field of movies or of series. */
  function DateFrom(ct: ContentType): ParamKey {
    if ct == Movie then ReleaseFrom else FirstAirFrom
  }

  /** The upper bound on the release date of a content type. */
  function DateTo(ct: ContentType): ParamKey {
    if ct == Movie then ReleaseTo else FirstAirTo
  }

  /**
   The value the preferences write under each key, read off the source
   key by key; None where they write nothing. Each key is written by one
   stage only, so the order of the stages does not matter.
   */
  function Written(ct: ContentType, slots: Slots, ids: seq<nat>, k: ParamKey): Option<Param> {
    var novedad := Get(slots, "novedad");
    var dur := Get(slots, "duracion_peli");
    var fama := Get(slots, "fama");
    match k
    case WithGenres => if ids != [] then Some(PStr(GenreList(ids))) else None
    case ReleaseFrom => if ct == Movie && novedad == VStr("nuevo") then Some(PStr("2015-01-01")) else None
    case ReleaseTo => if ct == Movie && novedad == VStr("clasico") then Some(PStr("2005-12-31")) else None
    case FirstAirFrom => if ct == Tv && novedad == VStr("nuevo") then Some(PStr("2015-01-01")) else None
    case FirstAirTo => if ct == Tv && novedad == VStr("clasico") then Some(PStr("2005-12-31")) else None
    case RuntimeAtMost => if ct == Movie && dur == VStr("corta") then Some(PInt(100)) else None
    case RuntimeAtLeast => if ct == Movie && dur == VStr("larga") then Some(PInt(130)) else None
    case SortBy => Some(PStr(if fama == VStr("conocida") then "popularity.desc" else "vote_average.desc"))
    case VotesAtLeast =>
      if fama == VStr("conocida") then Some(PInt(500)) else if fama == VStr("joyita") then Some(PInt(50)) else None
    case VotesAtMost => if fama == VStr("joyita") then Some(PInt(2000)) else None
    case _ => None
  }

  /**
   The staged builder agrees with the key-by-key table: a key is present
   when the base had it or a preference writes it, and a written value
   replaces the base's.
   */
  lemma ApplyPreferencesAt(ct: ContentType, slots: Slots, ids: seq<nat>, params: Params, k: ParamKey)
    ensures var p := ApplyPreferences(ct, slots, ids, params);
      var w := Written(ct, slots, ids, k);
      && (k in p <==> k in params || w.Some?)
      && (k in p ==> p[k] == if w.Some? then w.value else params[k])
  {
    var p1 := GenreStage(ids, params);
    var p2 := DateStage(ct, Get(slots, "novedad"), p1);
    var p3 := RuntimeStage(ct, Get(slots, "duracion_peli"), p2);
    var p := FameStage(Get(slots, "fama"), p3);
    assert p == ApplyPreferences(ct, slots, ids, params);
    StageAt(ct, slots, ids, params, p1, 1, k);
    StageAt(ct, slots, ids, p1, p2, 2, k);
    StageAt(ct, slots, ids, p2, p3, 3, k);
    StageAt(ct, slots, ids, p3, p, 4, k);
  }

  /** Which stage writes a key: 1 genres, 2 dates, 3 runtime, 4 popularity, 0 none. */
  function Stage(k: ParamKey): nat {
    match k
    case WithGenres => 1
    case ReleaseFrom => 2
    case ReleaseTo => 2
    case FirstAirFrom => 2
    case FirstAirTo => 2
    case RuntimeAtMost => 3
    case RuntimeAtLeast => 3
    case SortBy => 4
    case VotesAtLeast => 4
    case VotesAtMost => 4
    case _ => 0
  }

  /** The stage number `n` of the preferences, applied to `p`. */
  function StageN(ct: ContentType, slots: Slots, ids: seq<nat>, n: nat, p: Params): Params {
    if n == 1 then GenreStage(ids, p)
    else if n == 2 then DateStage(ct, Get(slots, "novedad"), p)
    else if n == 3 then RuntimeStage(ct, Get(slots, "duracion_peli"), p)
    else if n == 4 then FameStage(Get(slots, "fama"), p)
    else p
  }

  /** Stage `n` writes the table's value under its own keys and keeps every other key. */
  lemma StageAt(ct: ContentType, slots: Slots, ids: seq<nat>, p: Params, r: Params, n: nat, k: ParamKey)
    requires 1 <= n <= 4 && r == StageN(ct, slots, ids, n, p)
    ensures Stage(k) != n ==> (k in r <==> k in p) && (k in p ==> r[k] == p[k])
    ensures Stage(k) == n ==>
      var w := Written(ct, slots, ids, k);
      && (k in r <==> k in p || w.Some?)
      && (k in r ==> r[k] == if w.Some? then w.value else p[k])
  {
    if n == 1 {
      GenreStageAt(ct, slots, ids, p, k);
    } else if n == 2 {
      DateStageAt(ct, slots, ids, p, k);
    } else if n == 3 {
      RuntimeStageAt(ct, slots, ids, p, k);
    } else {
      FameStageAt(ct, slots, ids, p, k);
    }
  }

  /** What `StageAt` states, for one stage number. */
  predicate StageAgrees(ct: ContentType, slots: Slots, ids: seq<nat>, p: Params, r: Params, n: nat, k: ParamKey) {
    var w := Written(ct, slots, ids, k);
    && (Stage(k) != n ==> (k in r <==> k in p) && (k in p ==> r[k] == p[k]))
    && (Stage(k) == n ==> (k in r <==> k in p || w.Some?) && (k in r ==> r[k] == if w.Some? then w.value else p[k]))
  }

  lemma GenreStageAt(ct: ContentType, slots: Slots, ids: seq<nat>, p: Params, k: ParamKey)
    ensures StageAgrees(ct, slots, ids, p, GenreStage(ids, p), 1, k)
  {
  }

  lemma DateStageAt(ct: ContentType, slots: Slots, ids: seq<nat>, p: Params, k: ParamKey)
    ensures StageAgrees(ct, slots, ids, p, DateStage(ct, Get(slots, "novedad"), p), 2, k)
  {
  }

  lemma RuntimeStageAt(ct: ContentType, slots: Slots, ids: seq<nat>, p: Params, k: ParamKey)
    ensures StageAgrees(ct, slots, ids, p, RuntimeStage(ct, Get(slots, "duracion_peli"), p), 3, k)
  {
  }

  lemma FameStageAt(ct: ContentType, slots: Slots, ids: seq<nat>, p: Params, k: ParamKey)
    ensures StageAgrees(ct, slots, ids, p, FameStage(Get(slots, "fama"), p), 4, k)
  {
  }


  /** A key the preferences never write is left as the base had it. */
  lemma ApplyPreferencesFrame(ct: ContentType, slots: Slots, ids: seq<nat>, params: Params)
    ensures var p := ApplyPreferences(ct, slots, ids, params);
      forall k :: k !in PreferenceKeys ==> (k in p <==> k in params) && (k in params ==> p[k] == params[k])
  {
    forall k | k !in PreferenceKeys
      ensures var p := ApplyPreferences(ct, slots, ids, params);
        (k in p <==> k in params) && (k in params ==> p[k] == params[k])
    {
      ApplyPreferencesAt(ct, slots, ids, params, k);
    }
  }

  /** When the genre step does not raise, the preferences leave every other key of the query as it was. */
  lemma PreferencesFrame(ct: ContentType, slots: Slots, params: Params)
    ensures Preferences(ct, slots, params).Ok? ==>
      var p := Preferences(ct, slots, params).value;
      forall k :: k !in PreferenceKeys ==> (k in p <==> k in params) && (k in params ==> p[k] == params[k])
  {
    if Preferences(ct, slots, params).Ok? {
      var names := IterateOrEmpty(Get(slots, "generos")).value;
      ApplyPreferencesFrame(ct, slots, Genres.ResolveGenreIds(ct, names).value, params);
    }
  }

  /** Popularity decides `sort_by` and the vote-count bounds. */
  lemma ApplyPreferencesFame(ct: ContentType, slots: Slots, ids: seq<nat>, params: Params)
    requires forall k :: k in params ==> k !in PreferenceKeys
    ensures var p := ApplyPreferences(ct, slots, ids, params);
      && (Get(slots, "fama") == VStr("conocida") ==>
            SortBy in p && p[SortBy] == PStr("popularity.desc") && VotesAtLeast in p && p[VotesAtLeast] == PInt(500) && VotesAtMost !in p)
      && (Get(slots, "fama") == VStr("joyita") ==>
            SortBy in p && p[SortBy] == PStr("vote_average.desc") && VotesAtLeast in p && p[VotesAtLeast] == PInt(50)
            && VotesAtMost in p && p[VotesAtMost] == PInt(2000))
      && (Get(slots, "fama") != VStr("conocida") && Get(slots, "fama") != VStr("joyita") ==>
            SortBy in p && p[SortBy] == PStr("vote_average.desc") && VotesAtLeast !in p && VotesAtMost !in p)
  {
    assert SortBy !in params && VotesAtLeast !in params && VotesAtMost !in params;
    ApplyPreferencesAt(ct, slots, ids, params, SortBy);
    ApplyPreferencesAt(ct, slots, ids, params, VotesAtLeast);
    ApplyPreferencesAt(ct, slots, ids, params, VotesAtMost);
  }

  /** Runtime bounds come from the movie length only, and never for series. */
  lemma ApplyPreferencesRuntime(ct: ContentType, slots: Slots, ids: seq<nat>, params: Params)
    requires forall k :: k in params ==> k !in PreferenceKeys
    ensures var p := ApplyPreferences(ct, slots, ids, params);
      && (ct == Tv ==> RuntimeAtMost !in p && RuntimeAtLeast !in p)
      && (ct == Movie && Get(slots, "duracion_peli") == VStr("corta") ==>
            RuntimeAtMost in p && p[RuntimeAtMost] == PInt(100) && RuntimeAtLeast !in p)
      && (ct == Movie && Get(slots, "duracion_peli") == VStr("larga") ==>
            RuntimeAtLeast in p && p[RuntimeAtLeast] == PInt(130) && RuntimeAtMost !in p)
      && (Get(slots, "duracion_peli") != VStr("corta") && Get(slots, "duracion_peli") != VStr("larga") ==>
            RuntimeAtMost !in p && RuntimeAtLeast !in p)
  {
    assert RuntimeAtMost !in params && RuntimeAtLeast !in params;
    ApplyPreferencesAt(ct, slots, ids, params, RuntimeAtMost);
    ApplyPreferencesAt(ct, slots, ids, params, RuntimeAtLeast);
  }

  /** Recency bounds the release-date field of the content type, and no other date field. */
  lemma ApplyPreferencesDates(ct: ContentType, slots: Slots, ids: seq<nat>, params: Params)
    requires forall k :: k in params ==> k !in PreferenceKeys
    ensures var p := ApplyPreferences(ct, slots, ids, params);
      && (Get(slots, "novedad") == VStr("nuevo") ==> DateFrom(ct) in p && p[DateFrom(ct)] == PStr("2015-01-01"))
      && (Get(slots, "novedad") == VStr("clasico") ==> DateTo(ct) in p && p[DateTo(ct)] == PStr("2005-12-31"))
      && (forall k :: k in p && IsDateKey(k) ==> k == DateFrom(ct) || k == DateTo(ct))
  {
    var p := ApplyPreferences(ct, slots, ids, params);
    ApplyPreferencesAt(ct, slots, ids, params, DateFrom(ct));
    ApplyPreferencesAt(ct, slots, ids, params, DateTo(ct));
    forall k | k in p && IsDateKey(k)
      ensures k == DateFrom(ct) || k == DateTo(ct)
    {
      assert k in PreferenceKeys;
      ApplyPreferencesAt(ct, slots, ids, params, k);
    }
  }

  /** Genres appear, joined by commas, exactly when some name resolved. */
  lemma ApplyPreferencesGenres(ct: ContentType, slots: Slots, ids: seq<nat>, params: Params)
    requires WithGenres !in params
    ensures var p := ApplyPreferences(ct, slots, ids, params);
      && (WithGenres in p <==> ids != [])
      && (ids != [] ==> p[WithGenres] == PStr(GenreList(ids)))
  {
    ApplyPreferencesAt(ct, slots, ids, params, WithGenres);
  }

  /** Whether `Preferences` raises depends on the slots only, and it never raises UnboundLocalError. */
  lemma PreferencesRaiseIndependent(ct: ContentType, slots: Slots, p: Params, q: Params)
    ensures Preferences(ct, slots, p).Ok? <==> Preferences(ct, slots, q).Ok?
    ensures Preferences(ct, slots, p).Err? ==> Preferences(ct, slots, p).error != UnboundLocalError
  {
    match IterateOrEmpty(Get(slots, "generos"))
    case Err(_) =>
    case Ok(names) => Genres.ResolveGenreIdsSpec(ct, names);
  }

  /** What the restriction part leaves in the query when it does not raise. */
  lemma WrittenBaseSpec(slots: Slots, page: int, language: string, region: string)
    requires WrittenBase(slots, page, language, region).Ok?
    ensures var q := WrittenBase(slots, page, language, region).value;
      && Language in q && q[Language] == PStr(language)
      && Region in q && q[Region] == PStr(Text.Upper(region))
      && IncludeAdult in q && q[IncludeAdult] == PStr("false")
      && Page in q && q[Page] == PInt(page)
      && (forall k :: k in q ==> k !in PreferenceKeys)
      && (WithoutGenres in q <==> MentionsNoAnimation(Or(Get(slots, "restricciones"), VList([]))))
      && (WithoutGenres in q ==> q[WithoutGenres] == PStr("16"))
  {
  }

  /**
   What the query holds when building it succeeds: the fixed parameters,
   `sort_by` and the vote-count bounds by popularity, runtime bounds for
   movies only, date bounds on the content type's own date field.
   */
  lemma DiscoverParamsSpec(ct: ContentType, slots: Slots, page: int, language: string, region: string)
    requires DiscoverParams(ct, slots, page, language, region).Ok?
    ensures var p := DiscoverParams(ct, slots, page, language, region).value;
      && Language in p && p[Language] == PStr(language)
      && Region in p && p[Region] == PStr(Text.Upper(region))
      && IncludeAdult in p && p[IncludeAdult] == PStr("false")
      && Page in p && p[Page] == PInt(page)
    ensures var p := DiscoverParams(ct, slots, page, language, region).value;
      && (Get(slots, "fama") == VStr("conocida") ==>
            SortBy in p && p[SortBy] == PStr("popularity.desc") && VotesAtLeast in p && p[VotesAtLeast] == PInt(500) && VotesAtMost !in p)
      && (Get(slots, "fama") == VStr("joyita") ==>
            SortBy in p && p[SortBy] == PStr("vote_average.desc") && VotesAtLeast in p && p[VotesAtLeast] == PInt(50)
            && VotesAtMost in p && p[VotesAtMost] == PInt(2000))
      && (Get(slots, "fama") != VStr("conocida") && Get(slots, "fama") != VStr("joyita") ==>
            SortBy in p && p[SortBy] == PStr("vote_average.desc") && VotesAtLeast !in p && VotesAtMost !in p)
    ensures var p := DiscoverParams(ct, slots, page, language, region).value;
      && (ct == Tv ==> RuntimeAtMost !in p && RuntimeAtLeast !in p)
      && (ct == Movie && Get(slots, "duracion_peli") == VStr("corta") ==>
            RuntimeAtMost in p && p[RuntimeAtMost] == PInt(100) && RuntimeAtLeast !in p)
      && (ct == Movie && Get(slots, "duracion_peli") == VStr("larga") ==>
            RuntimeAtLeast in p && p[RuntimeAtLeast] == PInt(130) && RuntimeAtMost !in p)
    ensures var p := DiscoverParams(ct, slots, page, language, region).value;
      && (Get(slots, "novedad") == VStr("nuevo") ==> DateFrom(ct) in p && p[DateFrom(ct)] == PStr("2015-01-01"))
      && (Get(slots, "novedad") == VStr("clasico") ==> DateTo(ct) in p && p[DateTo(ct)] == PStr("2005-12-31"))
      && (forall k :: k in p && IsDateKey(k) ==> k == DateFrom(ct) || k == DateTo(ct))
  {
    var q := WrittenBase(slots, page, language, region).value;
    WrittenBaseSpec(slots, page, language, region);
    var names := IterateOrEmpty(Get(slots, "generos")).value;
    var ids := Genres.ResolveGenreIds(ct, names).value;
    assert DiscoverParams(ct, slots, page, language, region) == Ok(ApplyPreferences(ct, slots, ids, q));
    ApplyPreferencesFrame(ct, slots, ids, q);
    ApplyPreferencesFame(ct, slots, ids, q);
    ApplyPreferencesRuntime(ct, slots, ids, q);
    ApplyPreferencesDates(ct, slots, ids, q);
  }

  /**
   The builder as written raises UnboundLocalError exactly when the
   restrictions iterate without error and at least one of them is a known
   keyword: the branch that writes `without_genres` runs before `params`
   exists.
   */
  lemma UnboundExactlyOnKnownRestriction(ct: ContentType, slots: Slots, page: int, language: string, region: string)
    ensures var restr := Or(Get(slots, "restricciones"), VList([]));
      DiscoverParams(ct, slots, page, language, region) == Err(UnboundLocalError) <==>
        Iterate(restr).Ok? && Exclusions(Iterate(restr).value).Ok?
        && exists i :: 0 <= i < |Iterate(restr).value| && Mapped(Iterate(restr).value[i])
  {
    if WrittenBase(slots, page, language, region).Ok? {
      var q := WrittenBase(slots, page, language, region).value;
      PreferencesRaiseIndependent(ct, slots, q, q);
    }
  }

  /**
   With a list of restrictions the `no_animacion` branch never runs: a query
   that is built carries no `without_genres` at all.
   */
  lemma ListRestrictionsNeverExclude(ct: ContentType, slots: Slots, page: int, language: string, region: string)
    requires !Truthy(Get(slots, "restricciones")) || Get(slots, "restricciones").VList?
    requires DiscoverParams(ct, slots, page, language, region).Ok?
    ensures WithoutGenres !in DiscoverParams(ct, slots, page, language, region).value
  {
    var restr := Or(Get(slots, "restricciones"), VList([]));
    var rs := Iterate(restr).value;
    assert WrittenBase(slots, page, language, region).Ok?;
    assert Exclusions(rs) == Ok([]);
    assert Mapped(VStr("no_animacion"));
    assert forall i :: 0 <= i < |rs| ==> rs[i] != VStr("no_animacion");
    assert !MentionsNoAnimation(restr);
    var q := WrittenBase(slots, page, language, region).value;
    WrittenBaseSpec(slots, page, language, region);
    var names := IterateOrEmpty(Get(slots, "generos")).value;
    ApplyPreferencesFrame(ct, slots, Genres.ResolveGenreIds(ct, names).value, q);
  }

  /**
   A restriction given as one string is iterated character by character, so
   the loop excludes nothing, yet `"no_animacion" in restricciones` is a
   substring test that holds: the branch runs after all.
   */
  lemma StringRestrictionExcludesAnimation(ct: ContentType, page: int, language: string, region: string)
    ensures var slots := map["restricciones" := VStr("no_animacion")];
      && DiscoverParams(ct, slots, page, language, region).Ok?
      && WithoutGenres in DiscoverParams(ct, slots, page, language, region).value
      && DiscoverParams(ct, slots, page, language, region).value[WithoutGenres] == PStr("16")
  {
    var slots := map["restricciones" := VStr("no_animacion")];
    var restr := VStr("no_animacion");
    assert Get(slots, "restricciones") == restr;
    var rs := Iterate(restr).value;
    assert forall i :: 0 <= i < |rs| ==> !Mapped(rs[i]);
    assert Exclusions(rs) == Ok([]);
    assert Text.OccursAt("no_animacion", "no_animacion", 0);
    assert MentionsNoAnimation(restr);
    assert WrittenBase(slots, page, language, region).Ok?;
    WrittenBaseSpec(slots, page, language, region);
    var q := WrittenBase(slots, page, language, region).value;
    assert Get(slots, "generos") == VNone;
    assert Genres.ResolveGenreIds(ct, []) == Ok([]);
    assert DiscoverParams(ct, slots, page, language, region) == Ok(ApplyPreferences(ct, slots, [], q));
    ApplyPreferencesFrame(ct, slots, [], q);
  }

  // ---------------------------------------------------------------------------
  // The builder with `params` bound before `without_genres` is written.
  // ---------------------------------------------------------------------------

  /**
   The part before the preferences with the dict created ahead of the
   restriction loop: excluded IDs joined by commas, replaced by "16" alone
   when `no_animacion` is mentioned, as the override does.
   */
  function RestrictedBase(slots: Slots, page: int, language: string, region: string): Result<Params, PyError> {
    var restr := Or(Get(slots, "restricciones"), VList([]));
    match Iterate(restr)
    case Err(e) => Err(e)
    case Ok(rs) =>
      match Exclusions(rs)
      case Err(e) => Err(e)
      case Ok(without) =>
        var base := BaseParams(page, language, region);
        var p0 := if without != [] then base[WithoutGenres := PStr(Text.Join(without, ","))] else base;
        Ok(if MentionsNoAnimation(restr) then p0[WithoutGenres := PStr("16")] else p0)
  }

  /** `discover_tmdb` with `params` bound before the restriction loop writes into it. */
  function DiscoverParamsIntended(ct: ContentType, slots: Slots, page: int, language: string, region: string): Result<Params, PyError> {
    match RestrictedBase(slots, page, language, region)
    case Err(e) => Err(e)
    case Ok(q) => Preferences(ct, slots, q)
  }

  /**
   With `params` bound first, a list of string restrictions yields a query
   (when the genres can be read) that excludes genres exactly when a known
   keyword is among them: animation alone when `no_animacion` is, otherwise
   all their IDs.
   */
  lemma IntendedExcludesRestrictedGenres(ct: ContentType, slots: Slots, page: int, language: string, region: string)
    requires Get(slots, "restricciones").VList?
    requires forall i :: 0 <= i < |Get(slots, "restricciones").items| ==> Get(slots, "restricciones").items[i].VStr?
    requires Preferences(ct, slots, map[]).Ok?
    ensures DiscoverParamsIntended(ct, slots, page, language, region).Ok?
    ensures var rs := Get(slots, "restricciones").items;
      var p := DiscoverParamsIntended(ct, slots, page, language, region).value;
      && (WithoutGenres in p <==> exists i :: 0 <= i < |rs| && Mapped(rs[i]))
      && (VStr("no_animacion") in rs ==> p[WithoutGenres] == PStr("16"))
      && (VStr("no_animacion") !in rs && WithoutGenres in p ==> p[WithoutGenres] == PStr(Text.Join(Exclusions(rs).value, ",")))
      && (forall g :: g in Exclusions(rs).value <==> exists i :: 0 <= i < |rs| && Mapped(rs[i]) && g in RestrictionGenres[rs[i].s])
  {
    RestrictedBaseSpec(slots, page, language, region);
    var q := RestrictedBase(slots, page, language, region).value;
    PreferencesRaiseIndependent(ct, slots, map[], q);
    assert DiscoverParamsIntended(ct, slots, page, language, region) == Preferences(ct, slots, q);
    PreferencesKeepExclusions(ct, slots, q);
  }

  /** The preferences never touch `without_genres`. */
  lemma PreferencesKeepExclusions(ct: ContentType, slots: Slots, q: Params)
    requires Preferences(ct, slots, q).Ok?
    ensures var p := Preferences(ct, slots, q).value;
      && (WithoutGenres in p <==> WithoutGenres in q)
      && (WithoutGenres in q ==> p[WithoutGenres] == q[WithoutGenres])
  {
    var names := IterateOrEmpty(Get(slots, "generos")).value;
    var ids := Genres.ResolveGenreIds(ct, names).value;
    assert Preferences(ct, slots, q) == Ok(ApplyPreferences(ct, slots, ids, q));
    ApplyPreferencesFrame(ct, slots, ids, q);
    assert WithoutGenres !in PreferenceKeys;
  }

  /** The restriction part of the intended builder on a list of string restrictions. */
  lemma RestrictedBaseSpec(slots: Slots, page: int, language: string, region: string)
    requires Get(slots, "restricciones").VList?
    requires forall i :: 0 <= i < |Get(slots, "restricciones").items| ==> Get(slots, "restricciones").items[i].VStr?
    ensures RestrictedBase(slots, page, language, region).Ok?
    ensures var rs := Get(slots, "restricciones").items;
      var q := RestrictedBase(slots, page, language, region).value;
      && (forall k :: k in q ==> k !in PreferenceKeys)
      && (WithoutGenres in q <==> exists i :: 0 <= i < |rs| && Mapped(rs[i]))
      && (VStr("no_animacion") in rs ==> q[WithoutGenres] == PStr("16"))
      && (VStr("no_animacion") !in rs && WithoutGenres in q ==> q[WithoutGenres] == PStr(Text.Join(Exclusions(rs).value, ",")))
      && (forall g :: g in Exclusions(rs).value <==> exists i :: 0 <= i < |rs| && Mapped(rs[i]) && g in RestrictionGenres[rs[i].s])
  {
    var rs := Get(slots, "restricciones").items;
    RestrictedBaseOfStrings(slots, page, language, region);
    ExclusionsMembers(rs);
    if VStr("no_animacion") in rs {
      assert Mapped(VStr("no_animacion"));
    }
  }

  /** On a list of string restrictions the loop cannot raise, and the base is built from its IDs. */
  lemma RestrictedBaseOfStrings(slots: Slots, page: int, language: string, region: string)
    requires Get(slots, "restricciones").VList?
    requires forall i :: 0 <= i < |Get(slots, "restricciones").items| ==> Get(slots, "restricciones").items[i].VStr?
    ensures var rs := Get(slots, "restricciones").items;
      && Exclusions(rs).Ok?
      && var base := BaseParams(page, language, region);
         var without := Exclusions(rs).value;
         var p0 := if without != [] then base[WithoutGenres := PStr(Text.Join(without, ","))] else base;
         RestrictedBase(slots, page, language, region) == Ok(if VStr("no_animacion") in rs then p0[WithoutGenres := PStr("16")] else p0)
  {
    var restr := Get(slots, "restricciones");
    assert Or(restr, VList([])) == restr;
    assert Iterate(restr) == Ok(restr.items);
  }

  /** The intended builder never raises UnboundLocalError. */
  lemma IntendedNeverUnbound(ct: ContentType, slots: Slots, page: int, language: string, region: string)
    ensures DiscoverParamsIntended(ct, slots, page, language, region) != Err(UnboundLocalError)
  {
    if RestrictedBase(slots, page, language, region).Ok? {
      var q := RestrictedBase(slots, page, language, region).value;
      PreferencesRaiseIndependent(ct, slots, q, q);
    }
  }

  /** Without known restrictions the intended builder and the builder as written agree. */
  lemma IntendedAgreesWithoutRestrictions(ct: ContentType, slots: Slots, page: int, language: string, region: string)
    requires var rs := IterateOrEmpty(Get(slots, "restricciones"));
      rs.Ok? ==> forall i :: 0 <= i < |rs.value| ==> !Mapped(rs.value[i])
    ensures DiscoverParamsIntended(ct, slots, page, language, region) == DiscoverParams(ct, slots, page, language, region)
  {
  }
}

=== FILE: genres.dfy ===
/**
 Genre-name to catalog-ID resolution (`_resolve_genre_ids` with its two
 tables `MOVIE_GENRES` and `TV_GENRES`, app/utils.py). Names are
 lower-cased and stripped, looked up in the table of the content type,
 and the IDs found are kept once each, in the order they were first found.
 */
module Genres {
  import opened Wrappers
  import opened Values
  import Text

  /** `MOVIE_GENRES`: Spanish genre names, with and without accents, to TMDB movie genre IDs. */
  const MovieGenres: map<string, nat> := map[
    "accion" := 28, "acción" := 28,
    "aventura" := 12,
    "animacion" := 16, "animación" := 16,
    "comedia" := 35,
    "crimen" := 80,
    "documental" := 99,
    "drama" := 18,
    "familia" := 10751,
    "fantasia" := 14, "fantasía" := 14,
    "terror" := 27, "horror" := 27,
    "misterio" := 9648,
    "romance" := 10749,
    "ciencia ficcion" := 878, "ciencia ficción" := 878,
    "thriller" := 53
  ]

  /** `TV_GENRES`: the genre names the series search understands. */
  const TvGenres: map<string, nat> := map[
    "comedia" := 35,
    "animacion" := 16, "animación" := 16,
    "drama" := 18,
    "misterio" := 9648,
    "crimen" := 80,
    "familia" := 10751,
    "ciencia ficcion" := 10765, "ciencia ficción" := 10765
  ]

  /** The table for a content type: the movie table for movies, the series table otherwise. */
  function GenreTable(ct: ContentType): map<string, nat> {
    if ct == Movie then MovieGenres else TvGenres
  }

  /** Every ID in either table is non-zero, so `if gid` filters nothing but misses. */
  lemma TableIdsPositive(ct: ContentType)
    ensures forall key :: key in GenreTable(ct) ==> GenreTable(ct)[key] > 0
  {
  }

  /** The normalised lookup key of a genre name: `name.lower().strip()`. */
  function LookupKey(name: string): string {
    Text.Strip(Text.Lower(name))
  }

  /** A name the loop cannot handle: truthy but not a string, so `.lower()` raises. */
  predicate BadName(name: Value) {
    Truthy(name) && !name.VStr?
  }

  /** The ID one name resolves to, if the table knows its key. */
  function Found(ct: ContentType, name: Value): Option<nat> {
    if Truthy(name) && name.VStr? && LookupKey(name.s) in GenreTable(ct) then
      Some(GenreTable(ct)[LookupKey(name.s)])
    else None
  }

  /** The IDs found for `names`, in order, repeats included. */
  function FoundAll(ct: ContentType, names: seq<Value>): seq<nat> {
    if names == [] then []
    else
      var rest := FoundAll(ct, names[1..]);
      match Found(ct, names[0])
      case Some(x) => [x] + rest
      case None => rest
  }

  /** The IDs found are exactly the table values of the names the table knows. */
  lemma {:induction false} FoundAllMembers(ct: ContentType, names: seq<Value>)
    ensures forall x :: x in FoundAll(ct, names) <==> exists i :: 0 <= i < |names| && Found(ct, names[i]) == Some(x)
    decreases |names|
  {
    if names != [] {
      FoundAllMembers(ct, names[1..]);
      assert forall i :: 0 < i < |names| ==> names[1..][i - 1] == names[i];
      assert forall i :: 0 <= i < |names| - 1 ==> names[i + 1] == names[1..][i];
    }
  }

  /**
   One pass of the loop of `_resolve_genre_ids` for a name that does not
   raise: an empty name is skipped, and the ID of a known name is appended
   unless it is already in `ids`.
   */
  function Step(ct: ContentType, name: Value, ids: seq<nat>): seq<nat>
    requires !BadName(name)
  {
    if !Truthy(name) then ids
    else
      var key := LookupKey(name.s);
      var table := GenreTable(ct);
      if key in table && table[key] != 0 && table[key] !in ids then ids + [table[key]] else ids
  }

  /** The loop of `_resolve_genre_ids` over the names left, from the IDs gathered so far. */
  function ResolveFrom(ct: ContentType, names: seq<Value>, ids: seq<nat>): Result<seq<nat>, PyError> {
    if names == [] then Ok(ids)
    else if BadName(names[0]) then Err(AttributeError)
    else ResolveFrom(ct, names[1..], Step(ct, names[0], ids))
  }

  /** `_resolve_genre_ids(content_type, generos)`. */
  function ResolveGenreIds(ct: ContentType, names: seq<Value>): (r: Result<seq<nat>, PyError>)
    ensures r.Err? ==> r.error == AttributeError
    ensures r.Ok? ==> NoDuplicates(r.value)
  {
    assert FirstOccurrences(FoundAll(ct, [])) == [];
    ResolveFromIsFirstOccurrences(ct, [], names);
    assert [] + names == names;
    FirstOccurrencesSpec(FoundAll(ct, names));
    ResolveFrom(ct, names, [])
  }

  // ---------------------------------------------------------------------------
  // First occurrences: the declarative reading of "append if not already in".
  // ---------------------------------------------------------------------------

  predicate NoDuplicates<T(==)>(xs: seq<T>) {
    forall i, j :: 0 <= i < j < |xs| ==> xs[i] != xs[j]
  }

  /** The elements of `xs` at the indices where they occur for the first time, in order. */
  function FirstOccurrences<T(==)>(xs: seq<T>): seq<T> {
    if xs == [] then []
    else
      var init := xs[..|xs| - 1];
      var last := xs[|xs| - 1];
      FirstOccurrences(init) + (if last in init then [] else [last])
  }

  /** First occurrences hold each element of `xs` exactly once. */
  lemma {:induction false} FirstOccurrencesSpec<T>(xs: seq<T>)
    ensures NoDuplicates(FirstOccurrences(xs))
    ensures forall x :: x in FirstOccurrences(xs) <==> x in xs
  {
    if xs != [] {
      var init := xs[..|xs| - 1];
      FirstOccurrencesSpec(init);
      assert xs == init + [xs[|xs| - 1]];
    }
  }

  /** One pass of the loop turns the first occurrences of a prefix into those of the longer prefix. */
  lemma StepKeepsFirstOccurrences(ct: ContentType, done: seq<Value>, name: Value)
    requires !BadName(name)
    ensures Step(ct, name, FirstOccurrences(FoundAll(ct, done))) == FirstOccurrences(FoundAll(ct, done + [name]))
  {
    var f := FoundAll(ct, done);
    FoundAllSnoc(ct, done, name);
    FirstOccurrencesSpec(f);
    TableIdsPositive(ct);
    match Found(ct, name)
    case None => {
      assert FoundAll(ct, done + [name]) == f;
    }
    case Some(x) => {
      assert FoundAll(ct, done + [name]) == f + [x];
      assert (f + [x])[..|f + [x]| - 1] == f;
    }
  }

  /**
   Running the loop from the first occurrences of a prefix gives the first
   occurrences of the whole list, or raises when a later name is bad.
   */
  lemma {:induction false} ResolveFromIsFirstOccurrences(ct: ContentType, done: seq<Value>, names: seq<Value>)
    ensures ResolveFrom(ct, names, FirstOccurrences(FoundAll(ct, done))) ==
      if exists i :: 0 <= i < |names| && BadName(names[i]) then Err(AttributeError)
      else Ok(FirstOccurrences(FoundAll(ct, done + names)))
    decreases |names|
  {
    if names == [] {
      assert done + names == done;
    } else if !BadName(names[0]) {
      var done' := done + [names[0]];
      assert done + names == done' + names[1..];
      assert forall i :: 0 <= i < |names| - 1 ==> names[1..][i] == names[i + 1];
      StepKeepsFirstOccurrences(ct, done, names[0]);
      ResolveFromIsFirstOccurrences(ct, done', names[1..]);
    }
  }

  lemma {:induction false} FoundAllSnoc(ct: ContentType, names: seq<Value>, name: Value)
    ensures FoundAll(ct, names + [name]) == FoundAll(ct, names) + Hit(ct, name)
    decreases |names|
  {
    if names == [] {
      assert [] + [name] == [name];
      FoundAllCons(ct, name, []);
    } else {
      var x := names[0];
      var rest := names[1..];
      assert names == [x] + rest;
      assert names + [name] == [x] + (rest + [name]);
      FoundAllCons(ct, x, rest + [name]);
      FoundAllCons(ct, x, rest);
      FoundAllSnoc(ct, rest, name);
    }
  }

  /** The ID one name contributes to `FoundAll`: its table value, or nothing. */
  function Hit(ct: ContentType, name: Value): seq<nat> {
    if Found(ct, name).Some? then [Found(ct, name).value] else []
  }

  lemma FoundAllCons(ct: ContentType, x: Value, xs: seq<Value>)
    ensures FoundAll(ct, [x] + xs) == Hit(ct, x) + FoundAll(ct, xs)
  {
    assert ([x] + xs)[0] == x;
    assert ([x] + xs)[1..] == xs;
  }

  /**
   `_resolve_genre_ids` raises exactly when some name is truthy but not a
   string; otherwise it returns the table IDs of the names, each once, in
   the order of their first occurrence.
   */
  lemma ResolveGenreIdsSpec(ct: ContentType, names: seq<Value>)
    ensures ResolveGenreIds(ct, names).Err? <==> exists i :: 0 <= i < |names| && BadName(names[i])
    ensures ResolveGenreIds(ct, names).Err? ==> ResolveGenreIds(ct, names).error == AttributeError
    ensures ResolveGenreIds(ct, names).Ok? ==>
      && ResolveGenreIds(ct, names).value == FirstOccurrences(FoundAll(ct, names))
      && NoDuplicates(ResolveGenreIds(ct, names).value)
      && forall x :: x in ResolveGenreIds(ct, names).value <==> exists i :: 0 <= i < |names| && Found(ct, names[i]) == Some(x)
  {
    assert FirstOccurrences(FoundAll(ct, [])) == [];
    ResolveFromIsFirstOccurrences(ct, [], names);
    assert [] + names == names;
    FirstOccurrencesSpec(FoundAll(ct, names));
    FoundAllMembers(ct, names);
  }
}

=== FILE: questions.dfy ===
/**
 The question sequencer (`ChatManager._next_question`, app/chat.py): a
 fixed-order decision tree over the slot map that returns the one gate to ask
 about next, or nothing when the engine is ready to recommend.
 */
module Questions {
  import opened Wrappers
  import opened Values
  import opened SlotMerge
  import Text

  /** The slots the sequencer asks about, one gate each. */
  datatype Gate =
    | TipoContenido
    | Generos
    | DuracionPeli
    | Temporadas
    | EpisodiosTotales
    | DuracionCapitulo
    | Novedad
    | Contexto
    | Fama

  /** The slot-map key a gate reads, which is also the question key it returns. */
  function Key(g: Gate): string {
    match g
    case TipoContenido => "tipo_contenido"
    case Generos => "generos"
    case DuracionPeli => "duracion_peli"
    case Temporadas => "temporadas"
    case EpisodiosTotales => "episodios_totales"
    case DuracionCapitulo => "duracion_capitulo"
    case Novedad => "novedad"
    case Contexto => "contexto"
    case Fama => "fama"
  }

  /** Distinct gates read distinct keys. */
  lemma KeyInjective(g1: Gate, g2: Gate)
    ensures Key(g1) == Key(g2) ==> g1 == g2
  {
  }

  /**
   `(slots.get("tipo_contenido") or "indiferente").lower()`: a truthy value
   that is not a string has no `lower` and raises AttributeError.
   */
  function TipoText(slots: Slots): Result<string, PyError> {
    match Or(Get(slots, Key(TipoContenido)), VStr(Indifferent))
    case VStr(s) => Ok(Text.Lower(s))
    case _ => Err(AttributeError)
  }

  /** The content type the stored answer names: `Some` only for "movie" and "tv". */
  function ChosenType(slots: Slots): (r: Result<Option<ContentType>, PyError>)
    ensures r.Err? <==> TipoText(slots).Err?
    ensures r == Ok(Some(Movie)) <==> TipoText(slots) == Ok("movie")
    ensures r == Ok(Some(Tv)) <==> TipoText(slots) == Ok("tv")
  {
    match TipoText(slots)
    case Err(e) => Err(e)
    case Ok(t) => Ok(if t == "movie" then Some(Movie) else if t == "tv" then Some(Tv) else None)
  }

  /** `value in (None, "", "indiferente")`: the test of every gate but three. */
  predicate Unanswered(v: Value) {
    v == VNone || v == VStr("") || v == VStr(Indifferent)
  }

  /** Whether `v`, stored under `Key(g)`, lets gate `g` pass. */
  predicate Answers(g: Gate, v: Value) {
    match g
    case TipoContenido => v.VStr? && (Text.Lower(v.s) == "movie" || Text.Lower(v.s) == "tv")
    case Generos => Truthy(v)
    case Contexto => v != VNone && v != VStr("")
    case _ => !Unanswered(v)
  }

  predicate Passes(g: Gate, slots: Slots) {
    Answers(g, Get(slots, Key(g)))
  }

  /**
   `_next_question(slots)`, branch for branch. `Ok(Some(g))` asks about `g`,
   `Ok(None)` means ready to recommend, `Err` is the AttributeError a
   non-string content type raises.
   */
  function NextQuestion(slots: Slots): (r: Result<Option<Gate>, PyError>)
    ensures r.Err? <==> ChosenType(slots).Err?
    ensures r.Ok? && r.value.Some? ==> !Passes(r.value.value, slots)
    ensures r == Ok(None) ==> ChosenType(slots).Ok? && ChosenType(slots).value.Some?
  {
    match TipoText(slots)
    case Err(e) => Err(e)
    case Ok(tipo) =>
      if tipo != "movie" && tipo != "tv" then Ok(Some(TipoContenido))
      else if !Truthy(Or(Get(slots, Key(Generos)), VList([]))) then Ok(Some(Generos))
      else if tipo == "movie" && Unanswered(Get(slots, Key(DuracionPeli))) then Ok(Some(DuracionPeli))
      else if tipo == "tv" && Unanswered(Get(slots, Key(Temporadas))) then Ok(Some(Temporadas))
      else if tipo == "tv" && Unanswered(Get(slots, Key(EpisodiosTotales))) then Ok(Some(EpisodiosTotales))
      else if tipo == "tv" && Unanswered(Get(slots, Key(DuracionCapitulo))) then Ok(Some(DuracionCapitulo))
      else if Unanswered(Get(slots, Key(Novedad))) then Ok(Some(Novedad))
      else if Get(slots, Key(Contexto)) == VNone || Get(slots, Key(Contexto)) == VStr("") then Ok(Some(Contexto))
      else if Unanswered(Get(slots, Key(Fama))) then Ok(Some(Fama))
      else Ok(None)
  }

  // ---------------------------------------------------------------------------
  // Reference definition: the gates of each content type in order, and the
  // first one that fails.
  // ---------------------------------------------------------------------------

  /** The gates that apply to a content type, in the order they are asked. */
  function Order(k: ContentType): seq<Gate> {
    match k
    case Movie => [TipoContenido, Generos, DuracionPeli, Novedad, Contexto, Fama]
    case Tv => [TipoContenido, Generos, Temporadas, EpisodiosTotales, DuracionCapitulo, Novedad, Contexto, Fama]
  }

  /** Six gates apply to movies and eight to series, each once. */
  lemma OrderShape()
    ensures |Order(Movie)| == 6 && |Order(Tv)| == 8
    ensures forall k, i, j :: 0 <= i < j < |Order(k)| ==> Order(k)[i] != Order(k)[j]
  {
  }

  /** The index of the first gate of `gates` that fails, or `|gates|` when all pass. */
  function FailIndex(gates: seq<Gate>, slots: Slots): (n: nat)
    ensures n <= |gates|
    ensures forall i :: 0 <= i < n ==> Passes(gates[i], slots)
    ensures n < |gates| ==> !Passes(gates[n], slots)
  {
    if gates == [] then 0
    else if !Passes(gates[0], slots) then 0
    else 1 + FailIndex(gates[1..], slots)
  }

  /** The question the reference order asks: the first failing gate. */
  function FirstFailing(gates: seq<Gate>, slots: Slots): Option<Gate> {
    var n := FailIndex(gates, slots);
    if n < |gates| then Some(gates[n]) else None
  }

  /**
   The decision tree asks exactly the first failing gate of the content
   type's order: content type first, then genres, then the type's own gates,
   then recency, context and popularity.
   */
  lemma NextQuestionIsFirstFailing(slots: Slots)
    ensures ChosenType(slots).Err? ==> NextQuestion(slots).Err?
    ensures ChosenType(slots) == Ok(None) ==> NextQuestion(slots) == Ok(Some(TipoContenido))
    ensures forall k :: ChosenType(slots) == Ok(Some(k)) ==> NextQuestion(slots) == Ok(FirstFailing(Order(k), slots))
  {
    forall k | ChosenType(slots) == Ok(Some(k))
      ensures NextQuestion(slots) == Ok(FirstFailing(Order(k), slots))
    {
      if k == Movie {
        MovieFirstFailing(slots);
      } else {
        TvFirstFailing(slots);
      }
    }
  }

  /** The movie branches of the decision tree follow the movie order. */
  lemma MovieFirstFailing(slots: Slots)
    requires TipoText(slots) == Ok("movie")
    ensures NextQuestion(slots) == Ok(FirstFailing(Order(Movie), slots))
  {
    var gates := Order(Movie);
    assert Truthy(Or(Get(slots, Key(Generos)), VList([]))) == Passes(Generos, slots);
    assert gates[0] == TipoContenido && gates[1] == Generos && gates[2] == DuracionPeli;
    assert gates[3] == Novedad && gates[4] == Contexto && gates[5] == Fama;
  }

  /** The series branches of the decision tree follow the series order. */
  lemma TvFirstFailing(slots: Slots)
    requires TipoText(slots) == Ok("tv")
    ensures NextQuestion(slots) == Ok(FirstFailing(Order(Tv), slots))
  {
    var gates := Order(Tv);
    assert Truthy(Or(Get(slots, Key(Generos)), VList([]))) == Passes(Generos, slots);
    assert gates[0] == TipoContenido && gates[1] == Generos && gates[2] == Temporadas;
    assert gates[3] == EpisodiosTotales && gates[4] == DuracionCapitulo;
    assert gates[5] == Novedad && gates[6] == Contexto && gates[7] == Fama;
  }

  /** The sequencer returns nothing exactly when every gate of the chosen type passes. */
  lemma ReadyIffAllPass(slots: Slots)
    ensures NextQuestion(slots) == Ok(None) <==>
      exists k :: ChosenType(slots) == Ok(Some(k)) && forall i :: 0 <= i < |Order(k)| ==> Passes(Order(k)[i], slots)
  {
    NextQuestionIsFirstFailing(slots);
  }

  /** Content type is the only gate that depends on which other gates apply. */
  lemma OtherKeysKeepType(slots: Slots, g: Gate, v: Value)
    requires g != TipoContenido
    ensures ChosenType(slots[Key(g) := v]) == ChosenType(slots)
  {
    assert Get(slots[Key(g) := v], Key(TipoContenido)) == Get(slots, Key(TipoContenido));
  }

  /**
   Answering the asked gate with a value that passes it moves the next
   question strictly later in the content type's order.
   */
  lemma {:induction false} AnswerAdvances(slots: Slots, k: ContentType, g: Gate, v: Value)
    requires ChosenType(slots) == Ok(Some(k))
    requires NextQuestion(slots) == Ok(Some(g))
    requires Answers(g, v)
    ensures ChosenType(slots[Key(g) := v]) == Ok(Some(k))
    ensures FailIndex(Order(k), slots[Key(g) := v]) > FailIndex(Order(k), slots)
  {
    NextQuestionIsFirstFailing(slots);
    var gates := Order(k);
    var n := FailIndex(gates, slots);
    assert n < |gates| && gates[n] == g;
    TypedPassesType(slots);
    assert g != TipoContenido;
    OtherKeysKeepType(slots, g, v);
    OrderShape();
    assert forall i :: 0 <= i < n ==> gates[i] != gates[n];
    PrefixStillPasses(gates, slots, g, v, n);
    FailIndexPast(gates, slots[Key(g) := v], n);
  }

  /** A session whose type is movie or tv passes the content-type gate. */
  lemma TypedPassesType(slots: Slots)
    requires ChosenType(slots).Ok? && ChosenType(slots).value.Some?
    ensures Passes(TipoContenido, slots)
  {
  }

  /** Storing a passing answer for gate `n` keeps the gates before it passing, and makes gate `n` pass. */
  lemma PrefixStillPasses(gates: seq<Gate>, slots: Slots, g: Gate, v: Value, n: nat)
    requires n < |gates| && gates[n] == g && Answers(g, v)
    requires forall i :: 0 <= i < n ==> Passes(gates[i], slots) && gates[i] != g
    ensures forall i :: 0 <= i <= n ==> Passes(gates[i], slots[Key(g) := v])
  {
    var s' := slots[Key(g) := v];
    forall i | 0 <= i <= n
      ensures Passes(gates[i], s')
    {
      if i < n {
        KeyInjective(gates[i], g);
        assert Get(s', Key(gates[i])) == Get(slots, Key(gates[i]));
      }
    }
  }

  /** If the first `n + 1` gates pass, the first failure lies beyond `n`. */
  lemma {:induction false} FailIndexPast(gates: seq<Gate>, slots: Slots, n: nat)
    requires n < |gates|
    requires forall i :: 0 <= i <= n ==> Passes(gates[i], slots)
    ensures FailIndex(gates, slots) > n
  {
    if n > 0 {
      FailIndexPast(gates[1..], slots, n - 1);
    }
  }

  /**
   The dialogue when every asked gate is answered by `answer`: the questions
   asked, in order, and the slot map at the end. Each answer moves the next
   question strictly later, so once the content type is fixed at most the
   remaining gates of its order are asked, and the final map is ready.
   */
  function InterviewFrom(slots: Slots, k: ContentType, answer: Gate -> Value): (res: (seq<Gate>, Slots))
    requires ChosenType(slots) == Ok(Some(k))
    requires forall g :: Answers(g, answer(g))
    ensures |res.0| <= |Order(k)| - FailIndex(Order(k), slots)
    ensures ChosenType(res.1) == Ok(Some(k))
    ensures NextQuestion(res.1) == Ok(None)
    decreases |Order(k)| - FailIndex(Order(k), slots)
  {
    NextQuestionIsFirstFailing(slots);
    match NextQuestion(slots)
    case Ok(Some(g)) =>
      AnswerAdvances(slots, k, g, answer(g));
      var rest := InterviewFrom(slots[Key(g) := answer(g)], k, answer);
      ([g] + rest.0, rest.1)
    case _ => ([], slots)
  }

  /**
   Repeatedly answering whatever is asked with a value that passes the gate
   reaches "ready" after at most six questions for a movie and eight for a
   series, the content type being the one the dialogue settles on.
   */
  function Interview(slots: Slots, answer: Gate -> Value): (res: (seq<Gate>, Slots))
    requires ChosenType(slots).Ok?
    requires forall g :: Answers(g, answer(g))
    ensures NextQuestion(res.1) == Ok(None)
    ensures ChosenType(res.1).Ok? && ChosenType(res.1).value.Some?
    ensures |res.0| <= |Order(ChosenType(res.1).value.value)|
    ensures |res.0| <= 8
  {
    OrderShape();
    if ChosenType(slots).value.Some? then
      InterviewFrom(slots, ChosenType(slots).value.value, answer)
    else
      var v := answer(TipoContenido);
      assert Answers(TipoContenido, v);
      var k := if Text.Lower(v.s) == "movie" then Movie else Tv;
      var s' := slots[Key(TipoContenido) := v];
      assert Get(s', Key(TipoContenido)) == v;
      assert |v.s| == |Text.Lower(v.s)| > 0;
      assert TipoText(s') == Ok(Text.Lower(v.s));
      var rest := InterviewFrom(s', k, answer);
      ([TipoContenido] + rest.0, rest.1)
  }

  // ---------------------------------------------------------------------------
  // An indifferent answer is never recorded once anything is stored, and most
  // gates do not accept it anyway: the same question comes back.
  // ---------------------------------------------------------------------------

  /** The keys the sequencer reads. */
  predicate IsGateKey(key: string) {
    exists g :: Key(g) == key
  }

  /** The sequencer reads nothing but the gate keys. */
  lemma NextQuestionReadsGateKeys(s1: Slots, s2: Slots)
    requires forall g :: Get(s1, Key(g)) == Get(s2, Key(g))
    ensures NextQuestion(s1) == NextQuestion(s2)
  {
    assert Get(s1, Key(TipoContenido)) == Get(s2, Key(TipoContenido));
    assert Get(s1, Key(Generos)) == Get(s2, Key(Generos));
    assert Get(s1, Key(DuracionPeli)) == Get(s2, Key(DuracionPeli));
    assert Get(s1, Key(Temporadas)) == Get(s2, Key(Temporadas));
    assert Get(s1, Key(EpisodiosTotales)) == Get(s2, Key(EpisodiosTotales));
    assert Get(s1, Key(DuracionCapitulo)) == Get(s2, Key(DuracionCapitulo));
    assert Get(s1, Key(Novedad)) == Get(s2, Key(Novedad));
    assert Get(s1, Key(Contexto)) == Get(s2, Key(Contexto));
    assert Get(s1, Key(Fama)) == Get(s2, Key(Fama));
  }

  /**
   Once something is stored, an extraction whose informative entries touch no
   gate key (an answer of "indiferente" to the pending question, say) leaves
   the next question exactly as it was, so the same question is asked again.
   */
  lemma UninformativeAnswerRepeatsQuestion(current: Slots, incoming: Slots)
    requires |current| > 0
    requires forall key :: key in incoming && !IsSkip(incoming[key]) ==> !IsGateKey(key)
    ensures NextQuestion(MergeSlots(current, incoming)) == NextQuestion(current)
  {
    var merged := MergeSlots(current, incoming);
    forall g
      ensures Get(merged, Key(g)) == Get(current, Key(g))
    {
      assert IsGateKey(Key(g));
    }
    NextQuestionReadsGateKeys(merged, current);
  }

  /**
   The concrete case: a movie with a genre, asked about its length; the user
   says "me da igual", the extractor writes "indiferente" (and, as it always
   does, cantidad_recs), and the length question comes back.
   */
  lemma IndifferentLengthIsAskedAgain()
    ensures var s := map["tipo_contenido" := VStr("movie"), "generos" := VList([VStr("comedia")]), "cantidad_recs" := VInt(1)];
      var answer := map["duracion_peli" := VStr(Indifferent), "cantidad_recs" := VInt(1)];
      && NextQuestion(s) == Ok(Some(DuracionPeli))
      && NextQuestion(MergeSlots(s, answer)) == Ok(Some(DuracionPeli))
  {
    var s := map["tipo_contenido" := VStr("movie"), "generos" := VList([VStr("comedia")]), "cantidad_recs" := VInt(1)];
    var answer := map["duracion_peli" := VStr(Indifferent), "cantidad_recs" := VInt(1)];
    assert Text.Lower("movie") == "movie";
    assert TipoText(s) == Ok("movie");
    assert Get(s, Key(Generos)) == VList([VStr("comedia")]);
    assert Get(s, Key(DuracionPeli)) == VNone;
    assert NextQuestion(s) == Ok(Some(DuracionPeli));
    assert !IsGateKey("cantidad_recs") by {
      forall g ensures Key(g) != "cantidad_recs" {
        assert Key(g)[0] != 'c' || Key(g) == "contexto";
      }
    }
    assert forall key :: key in answer && !IsSkip(answer[key]) ==> key == "cantidad_recs";
    UninformativeAnswerRepeatsQuestion(s, answer);
  }

  // ---------------------------------------------------------------------------
  // The evidently intended behaviour: "indiferente" is an answer. The merger
  // records it over a slot that holds nothing, every gate accepts it, and a
  // content type of "indiferente" is searched as a movie, as recommending
  // already does.
  // ---------------------------------------------------------------------------

  /** A stored value that says nothing yet: falsy, or the indifference sentinel. */
  predicate Unset(v: Value) {
    !Truthy(v) || v == VStr(Indifferent)
  }

  /** The incoming entries the intended merge takes: informative ones, and "indiferente" over an unset slot. */
  predicate Recorded(current: Slots, incoming: Slots, k: string)
    requires k in incoming
  {
    !IsSkip(incoming[k]) || (incoming[k] == VStr(Indifferent) && Unset(Get(current, k)))
  }

  function RecordedEntries(current: Slots, incoming: Slots): (r: Slots)
    ensures forall k :: k in r <==> k in incoming && Recorded(current, incoming, k)
    ensures forall k :: k in r ==> r[k] == incoming[k]
  {
    map k | k in incoming && Recorded(current, incoming, k) :: incoming[k]
  }

  /**
   The intended merge: an empty session takes the answer verbatim, as
   `merge_slots` does; otherwise informative values win as before, and
   "indiferente" is recorded for a key whose stored value is unset.
   */
  function MergeIntended(current: Slots, incoming: Slots): (r: Slots)
    ensures |current| == 0 ==> r == incoming
    ensures current.Keys <= r.Keys <= current.Keys + incoming.Keys
    ensures forall k :: k in r ==> (k in incoming && r[k] == incoming[k]) || (k in current && r[k] == current[k])
  {
    if |current| == 0 then incoming else current + RecordedEntries(current, incoming)
  }

  /**
   What the intended merge keeps: informative values override, "indiferente"
   is recorded over an unset slot, a stored value that is set survives an
   uninformative answer, and on a non-empty session every value that changes
   is informative or "indiferente".
   */
  lemma MergeIntendedSpec(current: Slots, incoming: Slots)
    ensures var r := MergeIntended(current, incoming);
      forall k :: k in incoming && !IsSkip(incoming[k]) ==> k in r && r[k] == incoming[k]
    ensures var r := MergeIntended(current, incoming);
      forall k :: k in incoming && incoming[k] == VStr(Indifferent) && Unset(Get(current, k)) ==> k in r && r[k] == VStr(Indifferent)
    ensures var r := MergeIntended(current, incoming);
      forall k :: k in current && !Unset(current[k]) && (k !in incoming || IsSkip(incoming[k])) ==> k in r && r[k] == current[k]
    ensures var r := MergeIntended(current, incoming);
      |current| > 0 ==> forall k :: k in r && (k !in current || r[k] != current[k]) ==> !IsSkip(r[k]) || r[k] == VStr(Indifferent)
  {
  }

  /**
   The corrected merge differs from `merge_slots` only on a non-empty
   session, and there only by recording "indiferente" over an unset slot.
   */
  lemma MergeIntendedAgrees(current: Slots, incoming: Slots)
    ensures |current| == 0 ==> MergeIntended(current, incoming) == MergeSlots(current, incoming)
    ensures (forall k :: k in incoming && incoming[k] == VStr(Indifferent) ==> !Unset(Get(current, k))) ==>
      MergeIntended(current, incoming) == MergeSlots(current, incoming)
  {
  }

  /** The intended content type: "indiferente" is accepted and searched as a movie. */
  function IntendedType(slots: Slots): Result<Option<ContentType>, PyError> {
    match Or(Get(slots, Key(TipoContenido)), VStr(""))
    case VStr(s) =>
      var t := Text.Lower(s);
      Ok(if t == "movie" || t == Indifferent then Some(Movie) else if t == "tv" then Some(Tv) else None)
    case _ => Err(AttributeError)
  }

  /** The intended gate test: only null and "" are unanswered; genres must be truthy. */
  predicate IntendedPasses(g: Gate, slots: Slots) {
    var v := Get(slots, Key(g));
    match g
    case TipoContenido => IntendedType(slots).Ok? && IntendedType(slots).value.Some?
    case Generos => Truthy(v)
    case _ => v != VNone && v != VStr("")
  }

  /** The intended sequencer: the same order, the intended gate test. */
  function NextQuestionIntended(slots: Slots): (r: Result<Option<Gate>, PyError>)
    ensures r.Ok? && r.value.Some? ==> !IntendedPasses(r.value.value, slots)
    ensures forall k :: IntendedType(slots) == Ok(Some(k)) ==>
      r.Ok? && (r.value.Some? <==> exists i :: 0 <= i < |Order(k)| && !IntendedPasses(Order(k)[i], slots))
  {
    match IntendedType(slots)
    case Err(e) => Err(e)
    case Ok(None) => Ok(Some(TipoContenido))
    case Ok(Some(k)) =>
      var n := IntendedFailIndex(Order(k), slots);
      if n < |Order(k)| then Ok(Some(Order(k)[n])) else Ok(None)
  }

  function IntendedFailIndex(gates: seq<Gate>, slots: Slots): (n: nat)
    ensures n <= |gates|
    ensures forall i :: 0 <= i < n ==> IntendedPasses(gates[i], slots)
    ensures n < |gates| ==> !IntendedPasses(gates[n], slots)
  {
    if gates == [] then 0
    else if !IntendedPasses(gates[0], slots) then 0
    else 1 + IntendedFailIndex(gates[1..], slots)
  }

  /** The gate the corrected sequencer asks about holds nothing yet. */
  lemma AskedGateUnset(slots: Slots, g: Gate)
    requires NextQuestionIntended(slots) == Ok(Some(g))
    requires g == TipoContenido ==> Unset(Get(slots, Key(g)))
    ensures Unset(Get(slots, Key(g)))
  {
    assert !IntendedPasses(g, slots);
  }

  /** Answering "indiferente" for a slot that holds nothing records it. */
  lemma MergeRecordsIndifferent(slots: Slots, k: string)
    requires Unset(Get(slots, k))
    ensures Get(MergeIntended(slots, map[k := VStr(Indifferent)]), k) == VStr(Indifferent)
  {
    var incoming := map[k := VStr(Indifferent)];
    assert k in incoming && incoming[k] == VStr(Indifferent);
    MergeIntendedSpec(slots, incoming);
  }

  /** Under the intended rules, answering "indiferente" to the asked gate is never asked again. */
  lemma IndifferentAnswerAdvances(slots: Slots, g: Gate)
    requires NextQuestionIntended(slots) == Ok(Some(g))
    requires g == TipoContenido ==> Unset(Get(slots, Key(g)))
    ensures var s' := MergeIntended(slots, map[Key(g) := VStr(Indifferent)]);
      IntendedPasses(g, s') && NextQuestionIntended(s') != Ok(Some(g))
  {
    var s' := MergeIntended(slots, map[Key(g) := VStr(Indifferent)]);
    AskedGateUnset(slots, g);
    MergeRecordsIndifferent(slots, Key(g));
    IndifferentPasses(s', g);
  }

  /** A gate whose slot holds "indiferente" passes the corrected test. */
  lemma IndifferentPasses(slots: Slots, g: Gate)
    requires Get(slots, Key(g)) == VStr(Indifferent)
    ensures IntendedPasses(g, slots)
  {
    if g == TipoContenido {
      assert Text.Lower(Indifferent) == Indifferent;
      assert IntendedType(slots) == Ok(Some(Movie));
    }
  }
}

=== FILE: slot_merge.dfy ===
/**
 The slot merger (`merge_slots`, app/utils.py): newly extracted preferences
 are folded into the stored slot map. The values null, "", [] and
 "indiferente" carry no information and never overwrite a stored entry, with
 one exception taken from the code: when nothing is stored yet, the new map
 is copied verbatim, uninformative entries included.
 */
module SlotMerge {
  import opened Values

  /** The sentinel the extractor writes for "the user does not care". */
  const Indifferent: string := "indiferente"

  /** `value in (None, "", [], "indiferente")`. */
  predicate IsSkip(v: Value) {
    v == VNone || v == VStr("") || v == VList([]) || v == VStr(Indifferent)
  }

  /** The incoming entries that carry information. */
  function Informative(incoming: Slots): (r: Slots)
    ensures forall k :: k in r <==> k in incoming && !IsSkip(incoming[k])
    ensures forall k :: k in r ==> r[k] == incoming[k]
  {
    map k | k in incoming && !IsSkip(incoming[k]) :: incoming[k]
  }

  /**
   `merge_slots(current, new_slots)`. With a non-empty `current`, every key
   keeps its stored value unless `incoming` brings an informative value for
   it, which then wins; no key is dropped and no key is invented.
   */
  function MergeSlots(current: Slots, incoming: Slots): (r: Slots)
    ensures |current| == 0 ==> r == incoming
    ensures |current| > 0 ==> forall k :: k in r <==> k in current || (k in incoming && !IsSkip(incoming[k]))
    ensures |current| > 0 ==> forall k :: k in incoming && !IsSkip(incoming[k]) ==> r[k] == incoming[k]
    ensures |current| > 0 ==> forall k :: k in current && (k !in incoming || IsSkip(incoming[k])) ==> r[k] == current[k]
  {
    if |current| == 0 then incoming else current + Informative(incoming)
  }

  /** Merging the same extraction twice changes nothing the first merge did not. */
  lemma MergeIdempotent(current: Slots, incoming: Slots)
    ensures MergeSlots(MergeSlots(current, incoming), incoming) == MergeSlots(current, incoming)
  {
    var once := MergeSlots(current, incoming);
    if |once| > 0 {
      var twice := MergeSlots(once, incoming);
      assert twice.Keys == once.Keys;
      forall k | k in twice
        ensures twice[k] == once[k]
      {
      }
    }
  }

  /**
   Once a key is stored, an uninformative incoming value for it (in
   particular "indiferente") leaves the stored value as it was.
   */
  lemma StoredValueSurvivesSkip(current: Slots, incoming: Slots, k: string)
    requires k in current
    requires k in incoming ==> IsSkip(incoming[k])
    ensures k in MergeSlots(current, incoming)
    ensures MergeSlots(current, incoming)[k] == current[k]
  {
  }

  /** The keys of a merge are the stored keys plus the keys the extraction brought. */
  lemma MergeKeys(current: Slots, incoming: Slots)
    ensures current.Keys <= MergeSlots(current, incoming).Keys <= current.Keys + incoming.Keys
  {
  }
}

=== FILE: text.dfy ===
/**
 The string primitives the engine leans on, as Python defines them:
 `str.strip()`, `str.lower()`, `str.upper()`, substring `in`, `str(n)` for a
 non-negative integer, `int(s)` for a string, and `",".join`.
 */
module Text {
  import opened Wrappers

  /** Python's `str.isspace()` for one character. */
  predicate IsSpace(c: char) {
    || c == ' ' || c == '\t' || c == '\n' || c == '\r'
    || c == '\U{000B}' || c == '\U{000C}'
    || ('\U{001C}' <= c <= '\U{001F}')
    || c == '\U{0085}' || c == '\U{00A0}' || c == '\U{1680}'
    || ('\U{2000}' <= c <= '\U{200A}')
    || c == '\U{2028}' || c == '\U{2029}' || c == '\U{202F}' || c == '\U{205F}' || c == '\U{3000}'
  }

  /** Every character of `s` before index `i` is whitespace. */
  predicate SpacesBefore(s: string, i: int) {
    forall k :: 0 <= k < i && k < |s| ==> IsSpace(s[k])
  }

  /** Every character of `s` from index `j` on is whitespace. */
  predicate SpacesFrom(s: string, j: int) {
    forall k :: 0 <= k && j <= k < |s| ==> IsSpace(s[k])
  }

  /** `r` is `s[i..j]` and what lies around it is whitespace. */
  predicate StripsTo(s: string, i: int, j: int, r: string) {
    0 <= i <= j <= |s| && r == s[i..j] && SpacesBefore(s, i) && SpacesFrom(s, j)
  }

  lemma StripsCompose(s: string, i: int, t: string, j: int, r: string)
    requires StripsTo(s, i, |s|, t)
    requires StripsTo(t, 0, j, r)
    ensures StripsTo(s, i, i + j, r)
  {
    assert r == s[i..i + j];
    forall k | 0 <= k && i + j <= k < |s|
      ensures IsSpace(s[k])
    {
      assert s[k] == t[k - i];
    }
  }

  /** A string that neither starts nor ends with whitespace is its own strip. */
  lemma StripNoSpace(s: string)
    requires s == [] || (!IsSpace(s[0]) && !IsSpace(s[|s| - 1]))
    ensures Strip(s) == s
  {
    var i, j :| StripsTo(s, i, j, Strip(s));
    assert i == 0;
    assert j == |s|;
  }

  function TrimLeft(s: string): (r: string)
    ensures exists i :: StripsTo(s, i, |s|, r)
    ensures r == [] || !IsSpace(r[0])
  {
    if |s| > 0 && IsSpace(s[0]) then
      var r := TrimLeft(s[1..]);
      ghost var i :| StripsTo(s[1..], i, |s| - 1, r);
      StripsStep(s, i, r);
      r
    else
      assert StripsTo(s, 0, |s|, s);
      s
  }

  /** A leading space in front of a left-stripped tail is stripped too. */
  lemma StripsStep(s: string, i: int, r: string)
    requires |s| > 0 && IsSpace(s[0])
    requires StripsTo(s[1..], i, |s| - 1, r)
    ensures StripsTo(s, i + 1, |s|, r)
  {
    assert s[1..][i..|s| - 1] == s[i + 1..];
    forall k | 0 <= k < i + 1
      ensures IsSpace(s[k])
    {
      if k > 0 {
        assert s[k] == s[1..][k - 1];
      }
    }
  }

  function TrimRight(s: string): (r: string)
    ensures exists j :: StripsTo(s, 0, j, r)
    ensures r == [] || !IsSpace(r[|r| - 1])
  {
    if |s| > 0 && IsSpace(s[|s| - 1]) then
      var r := TrimRight(s[..|s| - 1]);
      ghost var j :| StripsTo(s[..|s| - 1], 0, j, r);
      assert StripsTo(s, 0, j, r);
      r
    else
      assert StripsTo(s, 0, |s|, s);
      s
  }

  /**
   Python's `str.strip()`: the result is a slice of `s` that drops only
   whitespace, and neither end of it is whitespace.
   */
  function Strip(s: string): (r: string)
    ensures exists i, j :: StripsTo(s, i, j, r)
    ensures r == [] || (!IsSpace(r[0]) && !IsSpace(r[|r| - 1]))
  {
    var t := TrimLeft(s);
    ghost var i :| StripsTo(s, i, |s|, t);
    var r := TrimRight(t);
    ghost var j :| StripsTo(t, 0, j, r);
    StripsCompose(s, i, t, j, r);
    r
  }

  /** `str.lower()` on one character: ASCII and Latin-1 capitals. */
  function LowerChar(c: char): char {
    if 'A' <= c <= 'Z' || ('\U{00C0}' <= c <= '\U{00DE}' && c != '\U{00D7}') then
      (c as int + 32) as char
    else
      c
  }

  /** `str.upper()` on one character: ASCII letters only. */
  function UpperChar(c: char): char {
    if 'a' <= c <= 'z' then (c as int - 32) as char else c
  }

  predicate IsUpperCase(c: char) {
    'A' <= c <= 'Z' || ('\U{00C0}' <= c <= '\U{00DE}' && c != '\U{00D7}')
  }

  /**
   Python's `str.lower()`: same length, each capital replaced by its small
   letter 32 code points up, other characters kept.
   */
  function Lower(s: string): (r: string)
    ensures |r| == |s|
    ensures forall i :: 0 <= i < |s| ==> !IsUpperCase(r[i])
    ensures forall i :: 0 <= i < |s| && IsUpperCase(s[i]) ==> r[i] as int == s[i] as int + 32
    ensures forall i :: 0 <= i < |s| && !IsUpperCase(s[i]) ==> r[i] == s[i]
  {
    seq(|s|, i requires 0 <= i < |s| => LowerChar(s[i]))
  }

  /**
   Python's `str.upper()` on ASCII: same length, each small letter replaced
   by its capital 32 code points down, other characters kept.
   */
  function Upper(s: string): (r: string)
    ensures |r| == |s|
    ensures forall i :: 0 <= i < |s| ==> !('a' <= r[i] <= 'z')
    ensures forall i :: 0 <= i < |s| && 'a' <= s[i] <= 'z' ==> r[i] as int == s[i] as int - 32
    ensures forall i :: 0 <= i < |s| && !('a' <= s[i] <= 'z') ==> r[i] == s[i]
  {
    seq(|s|, i requires 0 <= i < |s| => UpperChar(s[i]))
  }

  /** A string without capitals is its own lower-case form. */
  lemma LowerNoCapitals(s: string)
    requires forall i :: 0 <= i < |s| ==> !IsUpperCase(s[i])
    ensures Lower(s) == s
  {
  }

  /** `sub` occurs in `s` starting at offset `i`. */
  predicate OccursAt(s: string, sub: string, i: int) {
    0 <= i <= |s| - |sub| && s[i..i + |sub|] == sub
  }

  /** `sub in s` for strings: `sub` occurs at some offset of `s`. */
  function Contains(s: string, sub: string): (r: bool)
    ensures r <==> exists i :: OccursAt(s, sub, i)
    decreases |s|
  {
    if |sub| > |s| then false
    else if s[..|sub|] == sub then
      assert OccursAt(s, sub, 0);
      true
    else
      var rest := Contains(s[1..], sub);
      assert rest ==> exists i :: OccursAt(s, sub, i) by {
        if rest {
          var i :| OccursAt(s[1..], sub, i);
          assert s[1..][i..i + |sub|] == s[i + 1..i + 1 + |sub|];
          assert OccursAt(s, sub, i + 1);
        }
      }
      assert (exists i :: OccursAt(s, sub, i)) ==> rest by {
        if exists i :: OccursAt(s, sub, i) {
          var i :| OccursAt(s, sub, i);
          assert i != 0;
          assert s[1..][i - 1..i - 1 + |sub|] == s[i..i + |sub|];
          assert OccursAt(s[1..], sub, i - 1);
        }
      }
      rest
  }

  /** A non-empty string found inside `s` has its first character in `s`. */
  lemma ContainsFirstChar(s: string, sub: string)
    ensures |sub| > 0 && Contains(s, sub) ==> sub[0] in s
  {
    if |sub| > 0 && Contains(s, sub) {
      var i :| OccursAt(s, sub, i);
      assert s[i] == sub[0];
    }
  }

  /** An occurrence of `sub` puts its first two characters side by side in `s`. */
  lemma ContainsFirstPair(s: string, sub: string)
    ensures |sub| >= 2 && Contains(s, sub) ==> exists i :: 0 <= i < |s| - 1 && s[i] == sub[0] && s[i + 1] == sub[1]
  {
    if |sub| >= 2 && Contains(s, sub) {
      var i :| OccursAt(s, sub, i);
      assert s[i] == sub[0] && s[i + 1] == sub[1];
    }
  }

  predicate IsDigit(c: char) {
    '0' <= c <= '9'
  }

  function DigitChar(d: nat): char
    requires d < 10
  {
    ('0' as int + d) as char
  }

  /** Python's `str(n)` for a non-negative integer: its decimal digits, no leading zero. */
  function Decimal(n: nat): (r: string)
    ensures |r| > 0
    ensures forall i :: 0 <= i < |r| ==> IsDigit(r[i])
    ensures |r| > 1 ==> r[0] != '0'
  {
    if n < 10 then [DigitChar(n)] else Decimal(n / 10) + [DigitChar(n % 10)]
  }

  /**
   The digit run Python's `int()` accepts: decimal digits, with single
   underscores allowed between two digits.
   */
  predicate DigitRun(ds: string) {
    && |ds| > 0
    && IsDigit(ds[0]) && IsDigit(ds[|ds| - 1])
    && (forall i :: 0 <= i < |ds| ==> IsDigit(ds[i]) || ds[i] == '_')
    && (forall i :: 0 <= i < |ds| - 1 ==> !(ds[i] == '_' && ds[i + 1] == '_'))
  }

  /** The value of a digit run, underscores ignored. */
  function DigitRunValue(ds: string): nat
    requires forall i :: 0 <= i < |ds| ==> IsDigit(ds[i]) || ds[i] == '_'
  {
    if ds == [] then 0
    else if ds[|ds| - 1] == '_' then DigitRunValue(ds[..|ds| - 1])
    else
      assert IsDigit(ds[|ds| - 1]);
      DigitRunValue(ds[..|ds| - 1]) * 10 + (ds[|ds| - 1] as int - '0' as int)
  }

  /**
   Python's `int(s)` for a string: surrounding whitespace is dropped, then an
   optional sign and a digit run; anything else raises ValueError (None here).
   */
  function ParseInt(s: string): Option<int> {
    var t := Strip(s);
    if |t| > 0 && (t[0] == '+' || t[0] == '-') then
      var body := t[1..];
      if DigitRun(body) then
        var m: int := DigitRunValue(body);
        Some(if t[0] == '-' then -m else m)
      else None
    else if DigitRun(t) then Some(DigitRunValue(t))
    else None
  }

  /** `int(str(n)) == n` for every non-negative `n`. */
  lemma ParseDecimal(n: nat)
    ensures ParseInt(Decimal(n)) == Some(n)
  {
    var d := Decimal(n);
    StripNoSpace(d);
    DecimalRoundTrip(n);
  }

  /** Reading back the decimal text of `n` gives `n`: `int(str(n)) == n`. */
  lemma {:induction false} DecimalRoundTrip(n: nat)
    ensures DigitRun(Decimal(n))
    ensures DigitRunValue(Decimal(n)) == n
  {
    var d := Decimal(n);
    if n >= 10 {
      DecimalRoundTrip(n / 10);
      var prefix := Decimal(n / 10);
      assert d == prefix + [DigitChar(n % 10)];
      assert d[..|d| - 1] == prefix;
    }
  }

  /** `sep.join(parts)`. */
  function Join(parts: seq<string>, sep: string): (r: string)
    ensures parts == [] ==> r == []
    ensures |parts| == 1 ==> r == parts[0]
  {
    if parts == [] then []
    else if |parts| == 1 then parts[0]
    else parts[0] + sep + Join(parts[1..], sep)
  }
}

=== FILE: values.dfy ===
/** Failure-carrying wrappers shared by every module of the model. */
module Wrappers {

  datatype Option<+T> = None | Some(value: T)

  /** The outcome of a Python call that may raise: the value, or the exception raised. */
  datatype Result<+T, +E> = Ok(value: T) | Err(error: E)
}

/**
 The dynamically typed values the dialogue engine passes around: the JSON the
 extractor returns is stored as-is in the slot map, so a slot may hold null, a
 boolean, an integer, a string or a list. Python truthiness and the exceptions
 the modelled code can raise live here too.
 */
module Values {
  import opened Wrappers

  /** A JSON-like slot value. */
  datatype Value =
    | VNone
    | VBool(b: bool)
    | VInt(n: int)
    | VStr(s: string)
    | VList(items: seq<Value>)

  /** The exceptions the modelled Python code can raise. */
  datatype PyError =
    | TypeError          // iterating a non-iterable, hashing a list
    | AttributeError     // `.lower()` on a value that is not a string
    | ValueError         // `int()` of a string that is not a decimal literal
    | UnboundLocalError  // a local read before it is bound
    | HttpError          // a catalog request that failed

  /** The two catalog kinds the recommender queries. */
  datatype ContentType = Movie | Tv

  /** A slot map: slot name to the value the extractor gave it. */
  type Slots = map<string, Value>

  /** Python's `bool(v)`. */
  predicate Truthy(v: Value) {
    match v
    case VNone => false
    case VBool(b) => b
    case VInt(n) => n != 0
    case VStr(s) => s != ""
    case VList(xs) => xs != []
  }

  /** `m.get(k)`: the stored value, or null when the key is absent. */
  function Get(m: Slots, k: string): (v: Value)
    ensures k !in m ==> v == VNone
    ensures k in m ==> v == m[k]
  {
    if k in m then m[k] else VNone
  }

  /** Python's `v or d`. */
  function Or(v: Value, d: Value): (r: Value)
    ensures Truthy(v) ==> r == v
    ensures !Truthy(v) ==> r == d
  {
    if Truthy(v) then v else d
  }

  /**
   `for x in v` as Python runs it: a list yields its items, a string yields
   its characters as one-character strings, null is not iterable.
   Integers and booleans raise TypeError.
   */
  function Iterate(v: Value): (r: Result<seq<Value>, PyError>)
    ensures v.VList? ==> r == Ok(v.items)
    ensures v.VStr? ==> r.Ok? && |r.value| == |v.s|
    ensures v.VStr? ==> forall i :: 0 <= i < |v.s| ==> r.value[i] == VStr([v.s[i]])
    ensures r.Err? <==> !(v.VList? || v.VStr?)
    ensures r.Err? ==> r.error == TypeError
  {
    match v
    case VList(xs) => Ok(xs)
    case VStr(s) => Ok(seq(|s|, i requires 0 <= i < |s| => VStr([s[i]])))
    case _ => Err(TypeError)
  }

  /** The items of `v or []` under iteration: falsy values iterate as the empty list. */
  function IterateOrEmpty(v: Value): (r: Result<seq<Value>, PyError>)
    ensures !Truthy(v) ==> r == Ok([])
    ensures Truthy(v) ==> r == Iterate(v)
  {
    Iterate(Or(v, VList([])))
  }
}
